=== FILE: README.md ===
# Elevator order assignment: a Dafny model

This project models the sequential decision logic of a networked elevator
controller. Each car keeps its own matrix of orders, one cell per floor and
button type. The cars agree, without a coordinator, on who serves each hall
call:

- A car picks a NotTaken candidate by a fixed-priority search.
- It waits for a delay that depends on distance and adds a random back-off.
- It then claims the candidate if the candidate is still NotTaken.
- It releases a claim it abandons, or loses on entering Error.
- It resubmits every Taken claim whose timestamp has passed.

Messages travel as UDP broadcast frames. Each frame carries:

- a group id;
- a 20-digit nanosecond timestamp;
- a 6-digit process id;
- the message's type name;
- a JSON payload.

Frames are sent ten times. The receiver drops its own frames and repeats of the last timestamp seen for a type. An older part of the system prices hall calls with an integer cost function and keeps them in a queue keyed by cost.

The model is functional throughout:

- Orders, cars and matrices are immutable datatypes; a matrix is a `seq<seq<Order>>`.
- Every handler of the two event loops is a pure function. Each returns the new state, the orders sent to the local driver (`orderChan`), the orders broadcast (`txChan`) and whether the claim timer is re-armed.
- The queue is a sequence whose first element is the list's front.
- Frames are byte sequences.
- The wall clock, the random back-off draw, the process id and the order package's equality `CompareEq` are parameters.
- A Go panic (an index out of range, a read of an empty list, a negative channel capacity) becomes a precondition that states exactly when the source does not panic. So does the one send that can block a loop for ever on a channel nobody else drains: the abandoned-claim sweep's own channel.

Modules and files:

- `wrappers.dfy` (`Wrappers`): `Option`.
- `orders.dfy` (`Orders`): the order record used by the control loop, and the older order record used by the cost function and the queue.
- `elevator.dfy` (`Elevators`): the car record and its matrix operations.
- `request.dfy` (`Request`): next-order selection.
- `control.dfy` (`Control`): the control loop's handlers.
- `mainloop.dfy` (`MainLoop`): the older copy of the loop in `main.go`.
- `costfunction.dfy` (`CostFunction`): the cost function.
- `queue.dfy` (`OrderQueue`): the cost-keyed queue.
- `decimal.dfy` (`Decimal`): bytes, `%0Nd` and `strconv.Atoi`.
- `bcast.dfy` (`Bcast`): broadcast framing and de-duplication.

Behaviour of the code worth knowing before reading the model:

- A fresh car is at floor 0 and Idle (`NewElevator`).
- The abandoned-claim sweep hands the reset orders to the local driver only. It does not broadcast them.
- Orders have five statuses: Invalid, NotTaken, Taken, Execute and Finished.
- De-duplication keeps only the last timestamp per type, so a copy that arrives after another frame of the same type is delivered again. The same (type, timestamp) can therefore be delivered more than once (`Bcast.InterleavedCopiesRedelivered`).
- The sweep reads the clock once per cell, so a cell's verdict depends on when the scan reaches it (`Elevators.SweepOrdersMembership`).
- `orderAbove` stops below floor 4 whatever the configured number of floors (`Request.FixedScanTopMissesUpperFloors`).

## Model

| member | source | states |
|---|---|---|
| Orders.StatusCode | elevTypes/elevator/elevator.go:113 | a status prints as one digit 0..4, and it is 0 exactly for Invalid |
| Orders.StatusOfCode | elevTypes/elevator/elevator.go:113 | reading a digit back gives a status exactly for codes 0..4, and it is the status printed as that code |
| Elevators.NewElevator | elevTypes/elevator/elevator.go:66-78 | n rows of b zero-valued orders, Nfloors = n, Nbuttons = b, state Idle, and every other field at its zero value |
| Elevators.AssignOrderToMatrix | elevTypes/elevator/elevator.go:135-137 | only cell (o.Floor, o.Type) changes, to o; the shape, every other cell and every other field are unchanged; the cell must exist |
| Elevators.AssignOrderIdempotent | elevTypes/elevator/elevator.go:135-137 | assigning the same order twice is the same as assigning it once |
| Elevators.AssignOrdersCommute | elevTypes/elevator/elevator.go:135-137 | assignments to different cells commute |
| Elevators.AssignKeepsTakenCellsIndexed | elevTypes/elevator/elevator.go:135-137 | assignment keeps every Taken cell at the position its own floor and type name |
| Elevators.SameOrderInMatrix | elevTypes/elevator/elevator.go:121-131 | true exactly when some cell is CompareEq-equal to the order |
| Elevators.AssignedOrderIsContained | elevTypes/elevator/elevator.go:121-137 | after assigning o, the membership test finds o for any reflexive comparison |
| Elevators.CheckOrderTimestamp | elevTypes/elevator/elevator.go:44-64 | given one clock reading per cell, the nested loops emit exactly the reference sweep: each Taken cell whose timestamp its own reading has reached, once, in floor-major then type order; the car must be printable, since the matrix is logged first |
| Elevators.TimedOutAtConstant | elevTypes/elevator/elevator.go:49-63 | when every reading is the same instant, the sweep is the single-reading reference sweep |
| Elevators.SweepOrdersMembership | elevTypes/elevator/elevator.go:49-63 | with all readings between lo and hi, every cell Taken past its timestamp at lo is reported, and every reported order is a cell Taken past its timestamp by hi |
| Elevators.TimedOutOrdersMembership | elevTypes/elevator/elevator.go:49-63 | an order is emitted exactly when it is a cell of the matrix, Taken, and its timestamp is <= now |
| Elevators.OrderMatrixToString | elevTypes/elevator/elevator.go:109-118 | the rendering contains a space exactly when at least one floor is printed; it needs Nfloors <= number of rows |
| Elevators.RowRoundTrip | elevTypes/elevator/elevator.go:112-114 | a row's digits contain no space and read back as the row's statuses |
| Elevators.RowsRoundTrip | elevTypes/elevator/elevator.go:111-116 | rows rendered as digits plus one space each read back as their status matrix |
| Elevators.MatrixStringRoundTrip | elevTypes/elevator/elevator.go:109-118 | the rendering of the first Nfloors rows reads back as exactly their statuses |
| Request.HighestNotTaken | request/request.go:37-44 | the inner loop (i = l - t - 1) finds the highest-index NotTaken cell of the row, or -1 when there is none |
| Request.HighestNotTakenFinds | request/request.go:37-44 | the inner loop finds something exactly when the row holds a NotTaken cell |
| Request.ScanIndex | request/request.go:22-34 | the first floor of the scan order holding a NotTaken cell; every floor scanned before it exists and has none |
| Request.OrderAtFloor | request/request.go:36-45 | the current floor must exist; a hit is found exactly when that floor has a NotTaken cell, and it is the highest-index one |
| Request.OrderAbove | request/request.go:22-34 | a hit is the lowest floor above the car and below 4 with a NotTaken cell, at its highest NotTaken index; every floor passed on the way, and every floor up to 3 on a miss, exists and has none |
| Request.OrderBelow | request/request.go:8-20 | a hit is the highest floor below the car with a NotTaken cell, at its highest NotTaken index; every floor passed on the way, and every floor down to 0 on a miss, exists and has none |
| Request.OrderBetween | request/request.go:47-71 | moving up, the lowest floor from the car's up to the active order's (exclusive) with a NotTaken cell; moving down, the highest such floor from the car's down to the active order's (exclusive); stopped, nothing; every floor passed exists and has none |
| Request.BetweenFindsNothingNew | request/request.go:74-84 | on a 4-row matrix, once the searches at, above and below the car miss, the search between car and active order misses too |
| Request.FindNextOrder | request/request.go:74-93 | the result is Execute or Invalid; Invalid has floor -1 and type -1; Execute names an existing NotTaken cell; defined exactly when no search indexes a missing row |
| Request.NextOrderDefinedWhenInside | request/request.go:8-71 | with a known floor, at least 4 rows and the active order's floor in reach, no search indexes a missing row |
| Request.CurrentFloorFirst | request/request.go:36-45 | a NotTaken cell on the current floor always wins, and within the floor the highest type index wins |
| Request.NearestFloorAbove | request/request.go:22-34 | otherwise the nearest floor above (below 4) with a NotTaken cell wins, whatever the direction, with the highest type index |
| Request.NearestFloorBelow | request/request.go:8-20 | otherwise the nearest floor below with a NotTaken cell wins |
| Request.InvalidIffNothingNotTaken | request/request.go:82-90 | on a 4-row matrix the result is Invalid exactly when no cell is NotTaken |
| Request.FixedScanTopMissesUpperFloors | request/request.go:23 | on a 5-floor car the upward search never reaches floor 4, so a NotTaken call there yields Invalid |
| Request.GroundFloorScanMisses | request/request.go:74-93 | a stopped car on the ground floor whose first four rows hold no NotTaken cell finds nothing, whatever the higher rows hold |
| Request.NewElevatorIsQuiet | request/request.go:74-93 | a fresh 4-floor car has no candidate: the search is defined and returns Invalid |
| Request.NewElevatorHasNoClaims | elevTypes/elevator/elevator.go:44-78 | a fresh car of any size holds no Taken cell, so the timeout sweep emits nothing |
| Control.OrderDelay | control/control.go:51-64 | the delay is 250 ms per floor of distance plus a back-off in [-100 000 us, +100 000 us) |
| Control.CloserCandidateFiresFirst | control/control.go:53-62 | the back-off never outweighs one floor: a strictly closer candidate always fires first |
| Control.UpdatedElevatorState | control/control.go:95-128 | needs a printable snapshot (control.go:101 logs its matrix) on which no search panics; the result is the new snapshot with FindNextOrder of it; the timer is armed exactly when the candidate is not Invalid, with OrderDelay; at most two broadcasts, none of them a cab call, each either the new active order or that order as NotTaken, and when both are sent the announcement comes first |
| Control.ActiveOrderBroadcastRule | control/control.go:108-115 | the new active order is broadcast exactly when it is Finished or Taken, differs by CompareEq from the old one, and is not a cab call |
| Control.ErrorReleaseRule | control/control.go:117-125 | a NotTaken release is broadcast exactly when the car has just entered Error and its active order is not a cab call; staying in Error sends none |
| Control.StartNextOrder | control/control.go:69-91 | the candidate goes to the driver exactly when it is valid and its cell is still NotTaken; at most one release, only together with a submission, and it is the old active order as NotTaken |
| Control.ControlReleaseRule | control/control.go:81-89 | the old active order is released exactly when the candidate is submitted, the old order is a Taken hall call, and the two differ in floor or in type |
| Control.NewButtonPress | control/control.go:130-135 | a cab press is never broadcast; a hall press is broadcast unchanged |
| Control.SweepResubmissions | control/control.go:189-196 | defined exactly when the car is printable and every timed-out cell fits the channel of capacity Nfloors*Nbuttons; one resubmission per timed-out cell, in sweep order, each with status NotTaken and the cell's floor and type |
| Control.SweepFitsChannel | control/control.go:190 | a car with Nfloors rows of at most Nbuttons cells, the shape NewElevator builds, never overfills the sweep's channel |
| Control.ApplyNotTakenOrders | control/control.go:192-196 | when the driver applies NotTaken orders, each cell they aim at ends NotTaken and every other cell is unchanged |
| Control.SweepHealsMatrix | control/control.go:189-196 | if the driver assigns each resubmission to the matrix, then every resubmission names a cell, and after a sweep whose readings all come at or after lo, no cell is Taken past its timestamp at lo |
| Control.InitialLoopState | control/control.go:173-174 | the loop starts with an Invalid candidate, which it never tries to index |
| Control.Step | control/control.go:172-207 | one iteration is defined when it cannot panic or block; it keeps the candidate inside the matrix, never broadcasts a cab call, re-arms the timer only on a snapshot with a valid candidate, and changes its state only on a snapshot; a snapshot sends nothing to the driver and broadcasts only the new active order or its NotTaken release; a sweep tick sends exactly the sweep's resubmissions to the driver and broadcasts nothing; a network order goes to the driver unchanged and is not broadcast; a button press is broadcast exactly when it is a hall call |
| Control.Run | control/control.go:172-207 | over any run whose every event is defined in the state reached by then, no cab call is ever broadcast |
| MainLoop.OnOrderTimer | main.go:254-272 | submits exactly what control/control.go submits, and releases only orders that it would also release |
| MainLoop.MainReleaseRule | main.go:262-271 | the old active order is released exactly when the candidate is submitted, the old order is a Taken hall call, and the two differ in floor AND in type |
| MainLoop.MainKeepsAbandonedClaim | main.go:262 | switching from Taken (2, HallUp) to (3, HallUp) sends no release in main.go but one in control/control.go |
| MainLoop.Resume | main.go:225-233 | needs a printable restored car (main.go:229 logs its matrix); the restored active order is resubmitted once, with status Execute, its floor, type and timestamp kept |
| MainLoop.ResumeWithoutBackupExecutesGroundFloor | main.go:46-62 | with the backup missing or unreadable, resuming asks the driver to execute HallUp at floor 0 |
| MainLoop.Step | main.go:249-288 | main's loop is defined under the same conditions as the control loop (the matrix logged at main.go:150, the sweep channel at main.go:281) and keeps the same step invariants |
| MainLoop.StepsAgreeExceptRelease | main.go:249-288 | the two loops agree on state, driver orders and timer for every event, and on broadcasts for every event except a claim-timer expiry, where main's are a subset |
| CostFunction.EffectiveDirection | costfunction/costfunction.go:32-47 | a hall active order gives its own type; a cab one gives HallUp for motor up, HallDown for motor down and, when stopped, HallUp exactly when the target is above |
| CostFunction.CostWhenFinished | costfunction/costfunction.go:49-56 | with the active order finished, the cost is the distance |
| CostFunction.CostTargetAboveGoingUp | costfunction/costfunction.go:71-85 | target above and committed up: a HallDown target costs (3-c)+(3-t); any other target costs the distance |
| CostFunction.CostTargetBelowGoingDown | costfunction/costfunction.go:87-100 | target below and committed down: a HallUp target costs c+t; any other target costs the distance |
| CostFunction.CostAtTarget | costfunction/costfunction.go:57-69 | at the target, moving down costs downup and moving up costs updown; when stopped the committed direction chooses |
| CostFunction.CostRange | costfunction/costfunction.go:15-104 | with floors in 0..3 and valid types, -1 is never returned and the cost lies between the distance and 6 |
| CostFunction.CostMirrorSymmetric | costfunction/costfunction.go:15-104 | turning the building upside down leaves the cost unchanged, except for a stopped car whose cab order's target is its own floor |
| CostFunction.StoppedCabAtTargetIsAsymmetric | costfunction/costfunction.go:41-45 | the exception: that call costs 0 at floor 0 but 6 in the mirrored building |
| CostFunction.TestCostCases | costfunction/costfunction.go:106-372 | all nineteen TestCost cases give their stated answers |
| OrderQueue.Spread | queue/queue.go:22-25 | the loop adds one copy of the new order per costlier element |
| OrderQueue.SpreadMultiset | queue/queue.go:22-25 | the loop loses no element and adds exactly one copy of the new order per costlier element |
| OrderQueue.SpreadPositions | queue/queue.go:22-25 | the old elements keep their order, and each costlier one is directly preceded by a copy of the new order |
| OrderQueue.SpreadNothingCostlier | queue/queue.go:22-32 | with nothing costlier, the loop inserts nothing |
| OrderQueue.Enqueue | queue/queue.go:21-38 | empty queue: [x], true; back not costlier: x last, false; back costlier: x first, true; the queue gains one copy of x per costlier element plus one |
| OrderQueue.EnqueueNothingCostlier | queue/queue.go:22-32 | with nothing costlier, the result is old ++ [x], reported as a front insertion exactly when the queue was empty |
| OrderQueue.EnqueueDuplicatesOrder | queue/queue.go:21-38 | [5] plus 3 gives [3, 3, 5]; [5, 1] plus 3 gives [3, 5, 1, 3], reported as not at the front |
| OrderQueue.EnqueueSorted | queue/queue.go:17-20 | exactly one copy of x is added; a sorted queue stays sorted; a front insertion is reported exactly when the queue is empty or its front is costlier than x, and then x is first, otherwise the front is unchanged |
| OrderQueue.EnqueueSortedPosition | queue/queue.go:17-20 | the result is q[..k] ++ [x] ++ q[k..], where k follows every element no costlier than x and precedes the first costlier one |
| OrderQueue.EnqueueSortedAgrees | queue/queue.go:22-32 | where nothing is costlier, the corrected enqueue equals the one as written |
| OrderQueue.EnqueueSortedAppends | queue/queue.go:17-20 | with nothing costlier, the corrected enqueue appends x and reports a front insertion exactly when the queue was empty |
| OrderQueue.SurvivorsMembership | queue/queue.go:51-59 | a follower survives exactly when the front does not serve it: it has another floor, or it is a hall call of the other type |
| OrderQueue.Dequeue | queue/queue.go:41-64 | an empty queue stays empty; otherwise the front goes, together with exactly the followers it serves |
| OrderQueue.SurvivorsAppend | queue/queue.go:51-63 | the filter distributes over concatenation, so the survivors keep their relative order |
| OrderQueue.SurvivorsSorted | queue/queue.go:51-63 | the survivors of a sorted queue are sorted |
| OrderQueue.GetNextOrder | queue/queue.go:77-81 | an order of the queue, and for a queue in cost order one of least cost; the list must not be empty; that it is the front's order, as published, is stated by OrderQueue.QueueStepSorted |
| OrderQueue.QueueStep | queue/queue.go:87-115 | the queue becomes Enqueue's result (one copy of x more per costlier element, plus one) or Dequeue's (the front gone with exactly the followers it serves); the front is published after an enqueue exactly when enqueue reports a front insertion, and after a dequeue exactly when something is left |
| OrderQueue.AsWrittenLoopUnsorts | queue/queue.go:21-38 | one enqueue of cost 3 turns the sorted queue [1, 5] into [3, 1, 3, 5] |
| OrderQueue.AsWrittenLoopHidesFront | queue/queue.go:87-115 | on [5, 1], an enqueue of cost 3 puts the new order in front and publishes nothing, so the listener keeps the stale front |
| OrderQueue.QueueStepSorted | queue/queue.go:87-115 | the loop built on the corrected enqueue: an enqueue adds exactly one copy of x and publishes exactly when the queue was empty or its front costlier than x; a dequeue is Dequeue and publishes exactly when something is left; at most one order is published per event, and it is the queue's front |
| OrderQueue.CorrectedLoopKeepsFront | queue/queue.go:95-114 | with the corrected enqueue, the queue stays sorted and the listener always knows the current front |
| Decimal.FormatPadded | network/bcast/bcast.go:175-176 | `%0wd` of a value below 10^w is exactly w digits |
| Decimal.FixedDigitsRoundTrip | network/bcast/bcast.go:129 | a value written in w digits reads back as the value |
| Decimal.Atoi | network/bcast/bcast.go:131 | all digits parse to their value; '+' or '-' followed by digits parses to the value, negated after '-'; a lone sign, a first byte that is neither a sign nor a digit, and a non-digit after the first byte are syntax errors |
| Decimal.AtoiFormatted | network/bcast/bcast.go:130-131 | the 6-digit pid field parses back to the pid |
| Bcast.Clen | network/bcast/bcast.go:44-51 | the index of the first zero byte, or the length; every byte before it is non-zero |
| Bcast.ClenAfterText | network/bcast/bcast.go:139-140 | a NUL-free text followed by zero padding is cut back to the text |
| Bcast.ConvertToJsonMsg | network/bcast/bcast.go:163-172 | the body starts with the type name and the payload follows it |
| Bcast.PrefixMsg | network/bcast/bcast.go:174-180 | "4242" ++ 20-digit timestamp ++ 6-digit pid ++ body, length of the body + 30 |
| Bcast.ReceiveBuffer | network/bcast/bcast.go:121-123 | the first 1024 bytes of the datagram, zero-filled |
| Bcast.IsDuplicate | network/bcast/bcast.go:83-98 | true exactly when the map holds this timestamp for the type; afterwards map[type] = timestamp and other keys are unchanged |
| Bcast.FeedRepeatedOnce | network/bcast/bcast.go:83-98 | k copies of one (type, timestamp) in a row: only the first can be new, and it is new unless already recorded |
| Bcast.Demux | network/bcast/bcast.go:124-157 | a payload reaches a channel only when "4242" ++ its type name starts the text, and it is the rest of the text |
| Bcast.ReceiveFrame | network/bcast/bcast.go:108-159 | a frame whose pid field parses to the own pid reaches no channel; every delivery is the text after "4242" ++ the channel's type name |
| Bcast.Transmit | network/bcast/bcast.go:199-203 | the framed message is written exactly 10 times |
| Bcast.FrameTextRoundTrip | network/bcast/bcast.go:121-140 | a frame that fits the 1024-byte buffer, with a NUL-free body, reads back as "4242" ++ body after zero padding and clen |
| Bcast.BufferOfShortFrame | network/bcast/bcast.go:121-123 | the received buffer is the frame's group id, timestamp, pid and body, followed only by zero padding |
| Bcast.FrameRoundTrip | network/bcast/bcast.go:129-140 | for a NUL-free body in a frame that fits, bytes 4..24 hold the timestamp, bytes 24..30 parse to the pid, and the text is "4242" ++ body |
| Bcast.HeaderSurvives | network/bcast/bcast.go:129-131 | the timestamp and pid fields survive reception whatever the frame's length |
| Bcast.OwnFramesDropped | network/bcast/bcast.go:131-136 | a process never receives its own frames |
| Bcast.DemuxSingleMatch | network/bcast/bcast.go:142-155 | with one matching channel, a new timestamp delivers the payload there and records it; a repeat delivers nothing |
| Bcast.NoMatchDemux | network/bcast/bcast.go:124-157 | with no matching channel nothing is delivered or recorded |
| Bcast.TransmitReceiveOnce | network/bcast/bcast.go:108-180 | a new frame from another process is delivered once, to its type's channel, with the payload intact |
| Bcast.DuplicateFrameDropped | network/bcast/bcast.go:143-145 | a frame repeating the last timestamp of its type is dropped |
| Bcast.CopiesAfterFirstDropped | network/bcast/bcast.go:142-145 | once a frame's timestamp is recorded for its type, any number of further copies delivers nothing and leaves the map unchanged |
| Bcast.ResentCopiesDeliverOnce | network/bcast/bcast.go:199-203 | any positive number of back-to-back copies of a new frame delivers the payload exactly once |
| Bcast.InterleavedCopiesRedelivered | network/bcast/bcast.go:83-98 | frames A, B, A of one type deliver A twice: the map remembers only the last timestamp |
| Bcast.SevenDigitPidFramesAreLost | network/bcast/bcast.go:176 | any pid of seven digits shifts the frame by one byte, and the frame reaches no channel whose type name does not start with a digit |
| Bcast.SevenDigitPidText | network/bcast/bcast.go:139-140 | for a seven-digit pid, the received text carries the pid's last digit where the type name should start |

## Left out

- Sockets, `reflect.Select`, JSON encoding and decoding, logging and log files are I/O or foreign library calls. A payload is an opaque NUL-free byte string, and a delivery records the channel index and the payload bytes.
- The receiver's timestamp map is keyed by `reflect.Type`. The model keys it by type name, which is the same whenever the channels carry distinct type names.
- Channel blocking and `select` scheduling are not modelled, except for the sweep's own channel, which the same loop fills and then drains. A send to `orderChan` (capacity 100) or `txChan` waits for the driver or the network to read, and the model assumes it eventually does. Each loop is a function of one event at a time, and the timer field says whether a new delay replaces the pending one.
- The driver, the watchdog, signals and the file backup (`readElevatorFromFile`, `writeElevatorToFile`, `filebackup`) are left out: they are hardware, timers and file I/O. The backup's fallback to a fresh car is used only in `MainLoop.ResumeWithoutBackupExecutesGroundFloor`.
- The resume branch of `Setup` in control/control.go is the same as the one in main.go and is modelled once, as `MainLoop.Resume`.
- `CompareEq` of the order package is not part of this model. It is the parameter `eq`. `CompareFloorAndType` is taken to be equality of floor and type.
- The order package with statuses is not part of this model either. Its status codes are taken as Invalid = 0 up to Finished = 4, and button types are plain integers (HallUp = 0, HallDown = 1, Cab = 2), as in elevTypes/order/order.go.
- `driver.ElevState` and the motor directions are not part of this model. They are defined here with the fields the cost function reads.
- Control.OrderDelay: the float64 product `250.0 * dist` and its conversion to `time.Duration` are modelled in integers. They agree for every integer distance. The 64-bit overflow of `time.Duration` for absurd distances is not modelled.
- Decimal.Atoi: only inputs shorter than 19 bytes are modelled, without Go's slow path for longer ones. The receiver parses a 6-byte field.
- Decimal.FormatPadded: for a value needing more than w digits it states only that every byte is a digit, not the exact text.
- Elevators.OrderMatrixToString: its contract states where the spaces are. The digit content is stated by `Elevators.MatrixStringRoundTrip`.
- Control.SweepHealsMatrix: the driver that control/control.go and main.go start, a `driver.Driver` with seven parameters, is not part of this model. driver/driver.go stores the order it receives (driver/driver.go:107-109) and does not call `AssignOrderToMatrix`. The lemma assumes that the driver assigns every order it receives on `orderChan` to its matrix (`Control.ApplyOrders`).
- Order matrices are modelled as values. In Go, `Orders` is a slice of slices, so every copy of an `Elevator` sent on `mainElevatorChan` shares its rows with the driver's copy. A write the driver makes to those rows between two snapshots is visible to the loop at once, including to the "still NotTaken" tests at control/control.go:76 and main.go:257. The model reads only the last snapshot and does not model such writes.
- Elevators.CheckOrderTimestamp: the instant of each clock reading is a parameter. The model does not assume the readings are monotone, because `time.Now().Unix()` is a wall clock.
- The timeout helpers in timeout/timestamp.go and to_be_implemented/ are superseded by `CheckOrderTimestamp`, and json_test/main.go does not compile. None of them is modelled.
- `ToString`, printing and `printQueue` produce log text only.

## Findings

| source | as written | input that shows it | evidently intended | confidence | as-written member | corrected member |
|---|---|---|---|---|---|---|
| main.go:262 | the old active order is released only when the new candidate differs from it in floor AND in type | car serving Taken (2, HallUp) whose timer fires for NotTaken (3, HallUp): it switches orders and sends no release, so the other cars keep (2, HallUp) Taken until the timeout sweep | release when the orders differ in floor OR in type, as control/control.go:81-83 does | high; not executed | MainLoop.MainKeepsAbandonedClaim | Control.StartNextOrder |
| queue/queue.go:21-38 | the insertion loop puts a copy of the new order before every costlier element, then also appends it or pushes it to the front | enqueue cost 3 into [5]: [3, 3, 5]; enqueue cost 3 into [5, 1]: [3, 5, 1, 3], reported as not at the front | insert once, before the first costlier element, and report whether that is the front | high; not executed | OrderQueue.EnqueueDuplicatesOrder | OrderQueue.EnqueueSorted |

For the first row, `Control.ControlReleaseRule` proves the corrected release rule, and the control loop (`Control.Step`) uses it. For the second row, `OrderQueue.EnqueueSorted` proves single insertion and sortedness, and `OrderQueue.CorrectedLoopKeepsFront` proves that the loop built on it always publishes the current front.

=== FILE: bcast.dfy ===
/**
 * Broadcast framing, filtering and de-duplication (network/bcast/bcast.go).
 *
 * A frame is the group id "4242", the send time as 20 decimal digits, the
 * sender's process id as 6 decimal digits, the message's type name and its
 * JSON payload. Received datagrams land in a zeroed 1024-byte buffer; the
 * receiver drops its own frames, cuts the text at the first NUL byte, hands
 * the payload to the first channel whose type name it starts with, and drops
 * a frame whose timestamp equals the last one seen for that type. The JSON
 * payload is an opaque byte string here, and sockets are left out: a
 * transmission is the list of datagrams written, a reception the list of
 * deliveries made.
 */
module Bcast {

  import opened Wrappers
  import opened Decimal

  /** "4242" in ASCII: the group id that starts every frame. */
  const UniqueId: seq<byte> := [52, 50, 52, 50]
  const TimesToResend: nat := 10
  const TimestampLength: nat := 20
  const PidLength: nat := 6
  /** Group id, timestamp and pid. */
  const HeaderLength: nat := 30
  const BufferSize: nat := 1024

  predicate NoNul(s: seq<byte>) {
    forall i :: 0 <= i < |s| ==> s[i] != 0
  }

  predicate IsPrefix(p: seq<byte>, s: seq<byte>) {
    |p| <= |s| && s[..|p|] == p
  }

  /** The index of the first zero byte, or the length when there is none. */
  function Clen(b: seq<byte>): (n: nat)
    ensures n <= |b|
    ensures forall i :: 0 <= i < n ==> b[i] != 0
    ensures n < |b| ==> b[n] == 0
  {
    if |b| == 0 then 0
    else if b[0] == 0 then 0
    else 1 + Clen(b[1..])
  }

  /** Clen of a NUL-free text followed by nothing or by a zero byte is the
      text's length. */
  lemma {:induction false} ClenAfterText(a: seq<byte>, z: seq<byte>)
    requires NoNul(a)
    requires |z| > 0 ==> z[0] == 0
    ensures Clen(a + z) == |a|
    decreases |a|
  {
    if |a| == 0 {
      assert a + z == z;
    } else {
      assert (a + z)[0] == a[0];
      assert (a + z)[1..] == a[1..] + z;
      ClenAfterText(a[1..], z);
    }
  }

  /** The message body: type name then JSON payload. */
  function ConvertToJsonMsg(typeName: seq<byte>, json: seq<byte>): (m: seq<byte>)
    ensures IsPrefix(typeName, m) && m[|typeName|..] == json
  {
    assert (typeName + json)[..|typeName|] == typeName;
    typeName + json
  }

  /** The frame for body `m`, sent at `ts` nanoseconds by process `pid`. */
  function PrefixMsg(ts: nat, pid: nat, m: seq<byte>): (f: seq<byte>)
    ensures IsPrefix(UniqueId, f)
    ensures ts < Pow10(TimestampLength) && pid < Pow10(PidLength) ==>
      |f| == |m| + HeaderLength &&
      f[4..24] == FixedDigits(ts, TimestampLength) &&
      f[24..30] == FixedDigits(pid, PidLength) &&
      f[HeaderLength..] == m
  {
    var f := UniqueId + FormatPadded(ts, TimestampLength) + FormatPadded(pid, PidLength) + m;
    assert f[..4] == UniqueId;
    f
  }

  /** The receive buffer after reading datagram `d`: its first 1024 bytes,
      followed by zeros. */
  function ReceiveBuffer(d: seq<byte>): (buf: seq<byte>)
    ensures |buf| == BufferSize
    ensures forall i :: 0 <= i < BufferSize ==> buf[i] == (if i < |d| then d[i] else 0)
  {
    if |d| >= BufferSize then d[..BufferSize] else d + seq(BufferSize - |d|, _ => 0)
  }

  /** The dedup map: for each type name, the last timestamp field seen. */
  type SeenMap = map<seq<byte>, seq<byte>>

  /** Whether the frame repeats the last timestamp seen for its type; the
      map afterwards records this timestamp for the type. */
  function IsDuplicate(ts: seq<byte>, seen: SeenMap, ty: seq<byte>): (r: (bool, SeenMap))
    ensures r.0 <==> ty in seen && seen[ty] == ts
    ensures r.1 == seen[ty := ts]
  {
    if ty in seen then
      if seen[ty] != ts then (false, seen[ty := ts])
      else (true, seen)
    else (false, seen[ty := ts])
  }

  /** The answers to `k` consecutive checks of the same (type, timestamp). */
  function FeedRepeated(ts: seq<byte>, seen: SeenMap, ty: seq<byte>, k: nat): seq<bool>
    decreases k
  {
    if k == 0 then []
    else
      var (dup, seen') := IsDuplicate(ts, seen, ty);
      [dup] + FeedRepeated(ts, seen', ty, k - 1)
  }

  /** Repeated copies are caught: only the first check can say "new", and
      it does unless the map already held this timestamp. */
  lemma {:induction false} FeedRepeatedOnce(ts: seq<byte>, seen: SeenMap, ty: seq<byte>, k: nat)
    requires k >= 1
    ensures |FeedRepeated(ts, seen, ty, k)| == k
    ensures FeedRepeated(ts, seen, ty, k)[0] <==> ty in seen && seen[ty] == ts
    ensures forall i :: 1 <= i < k ==> FeedRepeated(ts, seen, ty, k)[i]
    decreases k
  {
    if k > 1 {
      var seen' := seen[ty := ts];
      FeedRepeatedOnce(ts, seen', ty, k - 1);
      var rest := FeedRepeated(ts, seen', ty, k - 1);
      assert FeedRepeated(ts, seen, ty, k) == [FeedRepeated(ts, seen, ty, k)[0]] + rest;
    }
  }

  /** A payload handed to the channel with index `channel`. */
  datatype Delivery = Delivery(channel: nat, payload: seq<byte>)

  /** What receiving one datagram produces. */
  datatype Received = Received(deliveries: seq<Delivery>, seen: SeenMap)

  /** The loop over the output channels, from index `first` on: a channel
      whose prefix "4242" ++ type name starts the text gets the rest of the
      text, unless the frame is a duplicate for that type, which ends the
      loop. */
  function Demux(types: seq<seq<byte>>, first: nat, text: seq<byte>, ts: seq<byte>, seen: SeenMap): (r: Received)
    ensures forall d :: d in r.deliveries ==>
      first <= d.channel < first + |types| &&
      UniqueId + types[d.channel - first] + d.payload == text
    decreases |types|
  {
    if |types| == 0 then Received([], seen)
    else
      var prefix := UniqueId + types[0];
      if IsPrefix(prefix, text) then
        var (dup, seen') := IsDuplicate(ts, seen, types[0]);
        if dup then Received([], seen)
        else
          assert text == prefix + text[|prefix|..];
          var rest := Demux(types[1..], first + 1, text, ts, seen');
          Received([Delivery(first, text[|prefix|..])] + rest.deliveries, rest.seen)
      else Demux(types[1..], first + 1, text, ts, seen)
  }

  /** The NUL-terminated text of a buffer with the timestamp and pid cut
      out. */
  function BufferText(buf: seq<byte>): seq<byte>
    requires |buf| == BufferSize
  {
    var msg := buf[..4] + buf[HeaderLength..];
    msg[..Clen(msg)]
  }

  /** Receiving one datagram as process `ownPid`, with output channels of
      the given type names. */
  function ReceiveFrame(datagram: seq<byte>, ownPid: int, types: seq<seq<byte>>, seen: SeenMap): (r: Received)
    ensures Atoi(ReceiveBuffer(datagram)[24..30]) == Some(ownPid) ==> r == Received([], seen)
    ensures forall d :: d in r.deliveries ==>
      d.channel < |types| &&
      UniqueId + types[d.channel] + d.payload == BufferText(ReceiveBuffer(datagram))
  {
    var buf := ReceiveBuffer(datagram);
    if Atoi(buf[24..30]) == Some(ownPid) then Received([], seen)
    else Demux(types, 0, BufferText(buf), buf[4..24], seen)
  }

  /** Receiving datagrams one after the other. */
  function ReceiveAll(datagrams: seq<seq<byte>>, ownPid: int, types: seq<seq<byte>>, seen: SeenMap): Received
    decreases |datagrams|
  {
    if |datagrams| == 0 then Received([], seen)
    else
      var r := ReceiveFrame(datagrams[0], ownPid, types, seen);
      var rest := ReceiveAll(datagrams[1..], ownPid, types, r.seen);
      Received(r.deliveries + rest.deliveries, rest.seen)
  }

  /** The resend loop: the framed message written `TimesToResend` times. */
  method Transmit(typeName: seq<byte>, json: seq<byte>, ts: nat, pid: nat) returns (writes: seq<seq<byte>>)
    ensures |writes| == TimesToResend
    ensures forall i :: 0 <= i < |writes| ==> writes[i] == PrefixMsg(ts, pid, ConvertToJsonMsg(typeName, json))
  {
    var frame := PrefixMsg(ts, pid, ConvertToJsonMsg(typeName, json));
    writes := [];
    var i := 0;
    while i < TimesToResend
      invariant 0 <= i <= TimesToResend
      invariant |writes| == i
      invariant forall j :: 0 <= j < i ==> writes[j] == frame
    {
      writes := writes + [frame];
      i := i + 1;
    }
  }

  /** A frame that fits the buffer and carries a NUL-free body parses back:
      the timestamp from bytes 4..24, the pid from bytes 24..30, and the
      text "4242" ++ body. */
  lemma FrameRoundTrip(ts: nat, pid: nat, m: seq<byte>)
    requires ts < Pow10(TimestampLength) && pid < Pow10(PidLength)
    requires NoNul(m) && |m| + HeaderLength <= BufferSize
    ensures var buf := ReceiveBuffer(PrefixMsg(ts, pid, m));
            buf[4..24] == FixedDigits(ts, TimestampLength) &&
            Value(buf[4..24]) == ts &&
            Atoi(buf[24..30]) == Some(pid) &&
            BufferText(buf) == UniqueId + m
  {
    HeaderSurvives(ts, pid, m);
    FixedDigitsRoundTrip(ts, TimestampLength);
    FrameTextRoundTrip(ts, pid, m);
  }

  /** The text of a frame that fits, with a NUL-free body. */
  lemma FrameTextRoundTrip(ts: nat, pid: nat, m: seq<byte>)
    requires ts < Pow10(TimestampLength) && pid < Pow10(PidLength)
    requires NoNul(m) && |m| + HeaderLength <= BufferSize
    ensures BufferText(ReceiveBuffer(PrefixMsg(ts, pid, m))) == UniqueId + m
  {
    var z := BufferOfShortFrame(ts, pid, m);
    var buf := ReceiveBuffer(PrefixMsg(ts, pid, m));
    var msg := buf[..4] + buf[HeaderLength..];
    assert msg == (UniqueId + m) + z;
    assert NoNul(UniqueId + m);
    ClenAfterText(UniqueId + m, z);
  }

  /** The buffer holding a frame that fits: the frame's fields, then the
      zero bytes `z`. */
  lemma BufferOfShortFrame(ts: nat, pid: nat, m: seq<byte>) returns (z: seq<byte>)
    requires ts < Pow10(TimestampLength) && pid < Pow10(PidLength)
    requires |m| + HeaderLength <= BufferSize
    ensures |z| > 0 ==> z[0] == 0
    ensures ReceiveBuffer(PrefixMsg(ts, pid, m))[..4] == UniqueId
    ensures ReceiveBuffer(PrefixMsg(ts, pid, m))[4..24] == FixedDigits(ts, TimestampLength)
    ensures ReceiveBuffer(PrefixMsg(ts, pid, m))[24..30] == FixedDigits(pid, PidLength)
    ensures ReceiveBuffer(PrefixMsg(ts, pid, m))[HeaderLength..] == m + z
  {
    var f := PrefixMsg(ts, pid, m);
    z := seq(BufferSize - |f|, _ => 0);
    var buf := ReceiveBuffer(f);
    assert buf == f + z;
    assert f == f[..HeaderLength] + m;
    assert buf[HeaderLength..] == m + z;
  }

  /** The header of a received frame is intact whatever its length. */
  lemma HeaderSurvives(ts: nat, pid: nat, m: seq<byte>)
    requires ts < Pow10(TimestampLength) && pid < Pow10(PidLength)
    ensures ReceiveBuffer(PrefixMsg(ts, pid, m))[4..24] == FixedDigits(ts, TimestampLength)
    ensures Atoi(ReceiveBuffer(PrefixMsg(ts, pid, m))[24..30]) == Some(pid)
  {
    var f := PrefixMsg(ts, pid, m);
    var buf := ReceiveBuffer(f);
    assert buf[4..24] == f[4..24];
    assert buf[24..30] == f[24..30];
    AtoiFormatted(pid, PidLength);
  }

  /** A process never receives its own frames. */
  lemma OwnFramesDropped(ts: nat, pid: nat, m: seq<byte>, types: seq<seq<byte>>, seen: SeenMap)
    requires ts < Pow10(TimestampLength) && pid < Pow10(PidLength)
    ensures ReceiveFrame(PrefixMsg(ts, pid, m), pid, types, seen) == Received([], seen)
  {
    HeaderSurvives(ts, pid, m);
  }

  /** When exactly one channel's prefix starts the text, the loop delivers
      the rest of the text to that channel and records the timestamp, or,
      for a duplicate, delivers nothing and changes nothing. */
  lemma {:induction false} DemuxSingleMatch(types: seq<seq<byte>>, first: nat, text: seq<byte>, ts: seq<byte>, seen: SeenMap, k: nat)
    requires k < |types| && IsPrefix(UniqueId + types[k], text)
    requires forall j :: 0 <= j < |types| && j != k ==> !IsPrefix(UniqueId + types[j], text)
    ensures types[k] in seen && seen[types[k]] == ts ==>
      Demux(types, first, text, ts, seen) == Received([], seen)
    ensures !(types[k] in seen && seen[types[k]] == ts) ==>
      Demux(types, first, text, ts, seen) ==
      Received([Delivery(first + k, text[|UniqueId + types[k]|..])], seen[types[k] := ts])
    decreases |types|
  {
    if k == 0 {
      var seen' := seen[types[0] := ts];
      NoMatchDemux(types[1..], first + 1, text, ts, seen');
    } else {
      assert !IsPrefix(UniqueId + types[0], text);
      forall j | 0 <= j < |types[1..]| && j != k - 1
        ensures !IsPrefix(UniqueId + types[1..][j], text)
      {
        assert types[1..][j] == types[j + 1];
      }
      DemuxSingleMatch(types[1..], first + 1, text, ts, seen, k - 1);
    }
  }

  /** With no matching channel, the loop does nothing. */
  lemma {:induction false} NoMatchDemux(types: seq<seq<byte>>, first: nat, text: seq<byte>, ts: seq<byte>, seen: SeenMap)
    requires forall j :: 0 <= j < |types| ==> !IsPrefix(UniqueId + types[j], text)
    ensures Demux(types, first, text, ts, seen) == Received([], seen)
    decreases |types|
  {
    if |types| > 0 {
      assert !IsPrefix(UniqueId + types[0], text);
      NoMatchDemux(types[1..], first + 1, text, ts, seen);
    }
  }

  /** A frame from another process that fits the buffer reaches the
      channel loop with its timestamp field and the text "4242" ++ body. */
  lemma FrameDemux(ts: nat, pid: nat, ownPid: int, m: seq<byte>, types: seq<seq<byte>>, seen: SeenMap)
    requires ts < Pow10(TimestampLength) && pid < Pow10(PidLength) && pid != ownPid
    requires NoNul(m) && |m| + HeaderLength <= BufferSize
    ensures ReceiveFrame(PrefixMsg(ts, pid, m), ownPid, types, seen) ==
      Demux(types, 0, UniqueId + m, FixedDigits(ts, TimestampLength), seen)
  {
    FrameRoundTrip(ts, pid, m);
  }

  /** The text of a message starts with "4242" ++ its type name and
      continues with its payload. */
  lemma MessageText(ty: seq<byte>, json: seq<byte>)
    ensures UniqueId + ConvertToJsonMsg(ty, json) == UniqueId + ty + json
    ensures IsPrefix(UniqueId + ty, UniqueId + ConvertToJsonMsg(ty, json))
    ensures (UniqueId + ConvertToJsonMsg(ty, json))[|UniqueId + ty|..] == json
  {
    var text := UniqueId + ty + json;
    assert text[..|UniqueId + ty|] == UniqueId + ty;
    assert text[|UniqueId + ty|..] == json;
  }

  /** The frame of a message of type `types[k]` from another process,
      received for the first time, is delivered once, to channel k, with the
      JSON payload intact, provided no other channel's type name prefixes
      the body. */
  lemma TransmitReceiveOnce(ts: nat, pid: nat, ownPid: int, types: seq<seq<byte>>, k: nat, json: seq<byte>, seen: SeenMap)
    requires ts < Pow10(TimestampLength) && pid < Pow10(PidLength) && pid != ownPid
    requires k < |types| && NoNul(types[k] + json)
    requires |types[k]| + |json| + HeaderLength <= BufferSize
    requires forall j :: 0 <= j < |types| && j != k ==> !IsPrefix(UniqueId + types[j], UniqueId + types[k] + json)
    requires !(types[k] in seen && seen[types[k]] == FixedDigits(ts, TimestampLength))
    ensures ReceiveFrame(PrefixMsg(ts, pid, ConvertToJsonMsg(types[k], json)), ownPid, types, seen) ==
      Received([Delivery(k, json)], seen[types[k] := FixedDigits(ts, TimestampLength)])
  {
    var m := ConvertToJsonMsg(types[k], json);
    FrameDemux(ts, pid, ownPid, m, types, seen);
    MessageText(types[k], json);
    DemuxSingleMatch(types, 0, UniqueId + m, FixedDigits(ts, TimestampLength), seen, k);
  }


  /** Once the timestamp is recorded, further copies deliver nothing. */
  lemma {:induction false} CopiesAfterFirstDropped(frame: seq<byte>, copies: seq<seq<byte>>, ts: nat, pid: nat,
                                                   ownPid: int, types: seq<seq<byte>>, k: nat, json: seq<byte>, seen: SeenMap)
    requires k < |types| && NoNul(types[k] + json)
    requires frame == PrefixMsg(ts, pid, ConvertToJsonMsg(types[k], json))
    requires forall i :: 0 <= i < |copies| ==> copies[i] == frame
    requires ts < Pow10(TimestampLength) && pid < Pow10(PidLength) && pid != ownPid
    requires |types[k]| + |json| + HeaderLength <= BufferSize
    requires forall j :: 0 <= j < |types| && j != k ==> !IsPrefix(UniqueId + types[j], UniqueId + types[k] + json)
    requires types[k] in seen && seen[types[k]] == FixedDigits(ts, TimestampLength)
    ensures ReceiveAll(copies, ownPid, types, seen) == Received([], seen)
    decreases |copies|
  {
    if |copies| > 0 {
      DuplicateFrameDropped(ts, pid, ownPid, types, k, json, seen);
      CopiesAfterFirstDropped(frame, copies[1..], ts, pid, ownPid, types, k, json, seen);
    }
  }

  /** A frame whose timestamp is the one last seen for its type delivers
      nothing and leaves the record as it was. */
  lemma DuplicateFrameDropped(ts: nat, pid: nat, ownPid: int, types: seq<seq<byte>>, k: nat, json: seq<byte>, seen: SeenMap)
    requires k < |types| && NoNul(types[k] + json)
    requires ts < Pow10(TimestampLength) && pid < Pow10(PidLength) && pid != ownPid
    requires |types[k]| + |json| + HeaderLength <= BufferSize
    requires forall j :: 0 <= j < |types| && j != k ==> !IsPrefix(UniqueId + types[j], UniqueId + types[k] + json)
    requires types[k] in seen && seen[types[k]] == FixedDigits(ts, TimestampLength)
    ensures ReceiveFrame(PrefixMsg(ts, pid, ConvertToJsonMsg(types[k], json)), ownPid, types, seen) == Received([], seen)
  {
    var m := ConvertToJsonMsg(types[k], json);
    FrameDemux(ts, pid, ownPid, m, types, seen);
    MessageText(types[k], json);
    DemuxSingleMatch(types, 0, UniqueId + m, FixedDigits(ts, TimestampLength), seen, k);
  }


  /** Redundant transmission is collapsed: any positive number of copies of
      a new frame, received back to back, delivers the payload exactly once. */
  lemma ResentCopiesDeliverOnce(copies: seq<seq<byte>>, ts: nat, pid: nat, ownPid: int,
                                types: seq<seq<byte>>, k: nat, json: seq<byte>, seen: SeenMap)
    requires k < |types| && NoNul(types[k] + json)
    requires |copies| >= 1
    requires forall i :: 0 <= i < |copies| ==> copies[i] == PrefixMsg(ts, pid, ConvertToJsonMsg(types[k], json))
    requires ts < Pow10(TimestampLength) && pid < Pow10(PidLength) && pid != ownPid
    requires |types[k]| + |json| + HeaderLength <= BufferSize
    requires forall j :: 0 <= j < |types| && j != k ==> !IsPrefix(UniqueId + types[j], UniqueId + types[k] + json)
    requires !(types[k] in seen && seen[types[k]] == FixedDigits(ts, TimestampLength))
    ensures ReceiveAll(copies, ownPid, types, seen).deliveries == [Delivery(k, json)]
  {
    var frame := PrefixMsg(ts, pid, ConvertToJsonMsg(types[k], json));
    TransmitReceiveOnce(ts, pid, ownPid, types, k, json, seen);
    var seen' := seen[types[k] := FixedDigits(ts, TimestampLength)];
    CopiesAfterFirstDropped(frame, copies[1..], ts, pid, ownPid, types, k, json, seen');
  }

  /** Receiving a first datagram and then the rest. */
  lemma ReceiveAllCons(d: seq<byte>, ds: seq<seq<byte>>, ownPid: int, types: seq<seq<byte>>, seen: SeenMap)
    ensures ReceiveAll([d] + ds, ownPid, types, seen).deliveries ==
      ReceiveFrame(d, ownPid, types, seen).deliveries +
      ReceiveAll(ds, ownPid, types, ReceiveFrame(d, ownPid, types, seen).seen).deliveries
  {
    assert ([d] + ds)[0] == d && ([d] + ds)[1..] == ds;
  }

  /** Three datagrams received in a row deliver what each delivers on its
      own, in order. */
  lemma ReceiveThree(f1: seq<byte>, f2: seq<byte>, f3: seq<byte>, ownPid: int, types: seq<seq<byte>>,
                     s0: SeenMap, s1: SeenMap, s2: SeenMap, s3: SeenMap, d1: Delivery, d2: Delivery, d3: Delivery)
    requires ReceiveFrame(f1, ownPid, types, s0) == Received([d1], s1)
    requires ReceiveFrame(f2, ownPid, types, s1) == Received([d2], s2)
    requires ReceiveFrame(f3, ownPid, types, s2) == Received([d3], s3)
    ensures ReceiveAll([f1, f2, f3], ownPid, types, s0).deliveries == [d1, d2, d3]
  {
    ReceiveAllCons(f3, [], ownPid, types, s2);
    ReceiveAllCons(f2, [f3], ownPid, types, s1);
    ReceiveAllCons(f1, [f2, f3], ownPid, types, s0);
    assert [f1] + [f2, f3] == [f1, f2, f3];
    assert [f2] + [f3] == [f2, f3];
  }

  /** A frame for a single-channel receiver whose timestamp differs from
      the one last seen for its type is delivered and recorded. */
  lemma SingleChannelDelivers(ts: nat, pid: nat, ownPid: int, ty: seq<byte>, json: seq<byte>, seen: SeenMap)
    requires ts < Pow10(TimestampLength) && pid < Pow10(PidLength) && pid != ownPid
    requires NoNul(ty + json) && |ty| + |json| + HeaderLength <= BufferSize
    requires !(ty in seen && seen[ty] == FixedDigits(ts, TimestampLength))
    ensures ReceiveFrame(PrefixMsg(ts, pid, ConvertToJsonMsg(ty, json)), ownPid, [ty], seen) ==
      Received([Delivery(0, json)], seen[ty := FixedDigits(ts, TimestampLength)])
  {
    TransmitReceiveOnce(ts, pid, ownPid, [ty], 0, json, seen);
  }

  /** The dedup key is only the last timestamp per type: when another
      frame of the same type arrives between two copies, the later copy is
      delivered again. */
  lemma InterleavedCopiesRedelivered(tsA: nat, tsB: nat, pidA: nat, pidB: nat, ownPid: int,
                                     ty: seq<byte>, jsonA: seq<byte>, jsonB: seq<byte>)
    requires tsA < Pow10(TimestampLength) && tsB < Pow10(TimestampLength) && tsA != tsB
    requires pidA < Pow10(PidLength) && pidB < Pow10(PidLength) && pidA != ownPid && pidB != ownPid
    requires NoNul(ty + jsonA) && NoNul(ty + jsonB)
    requires |ty| + |jsonA| + HeaderLength <= BufferSize && |ty| + |jsonB| + HeaderLength <= BufferSize
    ensures var fA := PrefixMsg(tsA, pidA, ConvertToJsonMsg(ty, jsonA));
            var fB := PrefixMsg(tsB, pidB, ConvertToJsonMsg(ty, jsonB));
            ReceiveAll([fA, fB, fA], ownPid, [ty], map[]).deliveries ==
              [Delivery(0, jsonA), Delivery(0, jsonB), Delivery(0, jsonA)]
  {
    var kA := FixedDigits(tsA, TimestampLength);
    var kB := FixedDigits(tsB, TimestampLength);
    FixedDigitsRoundTrip(tsA, TimestampLength);
    FixedDigitsRoundTrip(tsB, TimestampLength);
    assert kA != kB;
    var s0: SeenMap := map[];
    var s1 := s0[ty := kA];
    var s2 := s1[ty := kB];
    SingleChannelDelivers(tsA, pidA, ownPid, ty, jsonA, s0);
    SingleChannelDelivers(tsB, pidB, ownPid, ty, jsonB, s1);
    SingleChannelDelivers(tsA, pidA, ownPid, ty, jsonA, s2);
    ReceiveThree(PrefixMsg(tsA, pidA, ConvertToJsonMsg(ty, jsonA)), PrefixMsg(tsB, pidB, ConvertToJsonMsg(ty, jsonB)),
                 PrefixMsg(tsA, pidA, ConvertToJsonMsg(ty, jsonA)), ownPid, [ty],
                 s0, s1, s2, s2[ty := kA], Delivery(0, jsonA), Delivery(0, jsonB), Delivery(0, jsonA));
  }

  /** Process ids of seven digits do not fit the six-digit field: the frame
      is shifted by one byte, the pid's last digit lands where the type name
      should start, and the frame reaches no channel whose type name starts
      with something other than a digit. */
  lemma SevenDigitPidFramesAreLost(ts: nat, pid: nat, m: seq<byte>, ownPid: int, types: seq<seq<byte>>, seen: SeenMap)
    requires ts < Pow10(TimestampLength)
    requires Pow10(PidLength) <= pid < Pow10(PidLength + 1)
    requires forall j :: 0 <= j < |types| ==> |types[j]| > 0 && !IsDigit(types[j][0])
    ensures ReceiveFrame(PrefixMsg(ts, pid, m), ownPid, types, seen).deliveries == []
  {
    var buf := ReceiveBuffer(PrefixMsg(ts, pid, m));
    var text := BufferText(buf);
    SevenDigitPidText(ts, pid, m);
    if Atoi(buf[24..30]) != Some(ownPid) {
      forall j | 0 <= j < |types|
        ensures !IsPrefix(UniqueId + types[j], text)
      {
        assert (UniqueId + types[j])[4] == types[j][0];
      }
      NoMatchDemux(types, 0, text, buf[4..24], seen);
    }
  }

  /** With a seven-digit pid, the text's fifth byte, where the type name
      should start, is the pid's last digit. */
  lemma SevenDigitPidText(ts: nat, pid: nat, m: seq<byte>)
    requires ts < Pow10(TimestampLength)
    requires Pow10(PidLength) <= pid < Pow10(PidLength + 1)
    ensures var text := BufferText(ReceiveBuffer(PrefixMsg(ts, pid, m)));
            |text| > 4 && text[4] == DigitByte(pid % 10)
  {
    var f := PrefixMsg(ts, pid, m);
    SevenDigitPidByte(ts, pid, m);
    var buf := ReceiveBuffer(f);
    assert buf[..4] == f[..4] == UniqueId;
    assert buf[HeaderLength] == f[HeaderLength];
    TextStartsWith(buf, DigitByte(pid % 10));
  }

  /** A buffer holding the group id and a non-zero byte at offset 30 has a
      text whose fifth byte is that byte. */
  lemma TextStartsWith(buf: seq<byte>, b: byte)
    requires |buf| == BufferSize && buf[..4] == UniqueId
    requires b != 0 && buf[HeaderLength] == b
    ensures |BufferText(buf)| > 4 && BufferText(buf)[4] == b
  {
    var msg := buf[..4] + buf[HeaderLength..];
    assert msg[..4] == UniqueId && msg[4] == b;
    assert forall i :: 0 <= i < 5 ==> msg[i] != 0;
  }

  /** The frame of a seven-digit pid carries the pid's last digit at byte
      30, where the body should start. */
  lemma SevenDigitPidByte(ts: nat, pid: nat, m: seq<byte>)
    requires ts < Pow10(TimestampLength)
    requires Pow10(PidLength) <= pid < Pow10(PidLength + 1)
    ensures |PrefixMsg(ts, pid, m)| > HeaderLength && PrefixMsg(ts, pid, m)[HeaderLength] == DigitByte(pid % 10)
  {
    NumDigitsExact(pid, PidLength);
    var digits := FixedDigits(pid, PidLength + 1);
    assert FormatPadded(pid, PidLength) == digits;
    assert digits[PidLength] == DigitByte(pid % 10);
    var tsDigits := FormatPadded(ts, TimestampLength);
    assert |tsDigits| == TimestampLength;
    assert PrefixMsg(ts, pid, m) == UniqueId + tsDigits + digits + m;
  }
}

=== FILE: control.dfy ===
/**
 * The assignment-protocol decisions of the control loop (control/control.go).
 *
 * Every handler is a pure function from the loop's state and one event to the
 * new state, the orders sent to the local driver (`orderChan`), the orders
 * broadcast to the other cars (`txChan`) and whether the claim timer is
 * (re)armed, with its delay. The random back-off is an input: the value the
 * source draws from `rand.Intn`.
 */
module Control {

  import opened Wrappers
  import opened Orders
  import opened Elevators
  import opened Request

  /** Milliseconds of claim delay per floor of distance. */
  const DistPenaltyMs: int := 250
  /** Half-width of the random back-off window, in microseconds. */
  const BackoffMicros: int := 100000
  const NanosPerMilli: int := 1000000
  const NanosPerMicro: int := 1000

  /** The distance part of the claim delay, in nanoseconds. */
  function DistanceDelay(fromFloor: int, toFloor: int): int {
    FloorDistance(fromFloor, toFloor) * (DistPenaltyMs * NanosPerMilli)
  }

  /** Claim-timer delay in nanoseconds (a Go `time.Duration`): 250 ms per
      floor between car and candidate plus a back-off of `draw` - 100 000
      microseconds, where `draw` is the value of rand.Intn(200 000). */
  function OrderDelay(carFloor: int, nextFloor: int, draw: int): (d: int)
    requires 0 <= draw < 2 * BackoffMicros
    ensures DistanceDelay(carFloor, nextFloor) - BackoffMicros * NanosPerMicro <= d
    ensures d < DistanceDelay(carFloor, nextFloor) + BackoffMicros * NanosPerMicro
  {
    DistanceDelay(carFloor, nextFloor) + (draw - BackoffMicros) * NanosPerMicro
  }

  /** The back-off never outweighs one floor of distance: of two cars
      competing for candidates, the one with the shorter distance always
      fires first, whatever both draws are. */
  lemma CloserCandidateFiresFirst(car1: int, next1: int, draw1: int, car2: int, next2: int, draw2: int)
    requires 0 <= draw1 < 2 * BackoffMicros && 0 <= draw2 < 2 * BackoffMicros
    requires FloorDistance(car1, next1) < FloorDistance(car2, next2)
    ensures OrderDelay(car1, next1, draw1) < OrderDelay(car2, next2, draw2)
  {
    assert DistanceDelay(car1, next1) + DistPenaltyMs * NanosPerMilli <= DistanceDelay(car2, next2);
  }

  // ---------------------------------------------------------------------
  // A new elevator snapshot from the driver
  // ---------------------------------------------------------------------

  /** What handling a new snapshot produces. */
  datatype StateUpdate = StateUpdate(elev: Elevator, next: Order, tx: seq<Order>, timer: Option<int>)

  /** The new active order is announced when it is Finished or Taken,
      differs (by the order package's comparison `eq`) from the previous
      active order, and is not a cab call. */
  function ActiveOrderAnnouncement(prev: Elevator, cur: Elevator, eq: (Order, Order) -> bool): seq<Order> {
    if (cur.activeOrder.status == Finished || cur.activeOrder.status == Taken) &&
       !eq(prev.activeOrder, cur.activeOrder) && cur.activeOrder.kind != Cab
    then [cur.activeOrder]
    else []
  }

  /** On entering Error the active order is released as NotTaken, unless it
      is a cab call. */
  function ErrorRelease(prev: Elevator, cur: Elevator): seq<Order> {
    var o := WithStatus(cur.activeOrder, NotTaken);
    if cur.state == Error && prev.state != cur.state && o.kind != Cab then [o] else []
  }

  /** Handles a new snapshot `newElev` following `elev`: log its matrix,
      recompute the candidate, re-arm the claim timer when there is one, and
      broadcast the announcement and the error release. */
  function UpdatedElevatorState(newElev: Elevator, elev: Elevator, eq: (Order, Order) -> bool, draw: int): (u: StateUpdate)
    requires Printable(newElev) && NextOrderDefined(newElev)
    requires 0 <= draw < 2 * BackoffMicros
    ensures u.elev == newElev && u.next == FindNextOrder(newElev)
    ensures u.timer.Some? <==> u.next.status != Invalid
    ensures u.timer.Some? ==> u.timer.value == OrderDelay(newElev.floor, u.next.floor, draw)
    ensures |u.tx| <= 2
    ensures forall m :: m in u.tx ==> m.kind != Cab
    ensures forall m :: m in u.tx ==> m == newElev.activeOrder || m == WithStatus(newElev.activeOrder, NotTaken)
    ensures |u.tx| == 2 ==> u.tx[0] == newElev.activeOrder && u.tx[1] == WithStatus(newElev.activeOrder, NotTaken)
  {
    var next := FindNextOrder(newElev);
    var timer := if next.status != Invalid then Some(OrderDelay(newElev.floor, next.floor, draw)) else None;
    StateUpdate(newElev, next, ActiveOrderAnnouncement(elev, newElev, eq) + ErrorRelease(elev, newElev), timer)
  }

  /** The new active order is broadcast exactly when it is Finished or
      Taken, differs from the previous active order and is not a cab call. */
  lemma ActiveOrderBroadcastRule(newElev: Elevator, elev: Elevator, eq: (Order, Order) -> bool, draw: int)
    requires Printable(newElev) && NextOrderDefined(newElev)
    requires 0 <= draw < 2 * BackoffMicros
    ensures (newElev.activeOrder in UpdatedElevatorState(newElev, elev, eq, draw).tx &&
             newElev.activeOrder.status != NotTaken)
        <==> ((newElev.activeOrder.status == Finished || newElev.activeOrder.status == Taken) &&
              !eq(elev.activeOrder, newElev.activeOrder) && newElev.activeOrder.kind != Cab)
  {
  }

  /** A NotTaken release is broadcast exactly when the car has just entered
      Error and its active order is not a cab call; it is then the active
      order with status NotTaken. Staying in Error sends no release. */
  lemma ErrorReleaseRule(newElev: Elevator, elev: Elevator, eq: (Order, Order) -> bool, draw: int)
    requires Printable(newElev) && NextOrderDefined(newElev)
    requires 0 <= draw < 2 * BackoffMicros
    ensures (exists m :: m in UpdatedElevatorState(newElev, elev, eq, draw).tx && m.status == NotTaken)
        <==> (newElev.state == Error && elev.state != Error && newElev.activeOrder.kind != Cab)
    ensures newElev.state == Error && elev.state != Error && newElev.activeOrder.kind != Cab ==>
      WithStatus(newElev.activeOrder, NotTaken) in UpdatedElevatorState(newElev, elev, eq, draw).tx
  {
    var u := UpdatedElevatorState(newElev, elev, eq, draw);
    if newElev.state == Error && elev.state != Error && newElev.activeOrder.kind != Cab {
      assert u.tx[|u.tx| - 1] == WithStatus(newElev.activeOrder, NotTaken);
    }
  }

  // ---------------------------------------------------------------------
  // The claim timer fires
  // ---------------------------------------------------------------------

  /** What a claim-timer expiry produces. */
  datatype TimerOutcome = TimerOutcome(orderChan: seq<Order>, tx: seq<Order>)

  /** The candidate is valid and its cell is still NotTaken. */
  predicate StillNotTaken(e: Elevator, next: Order)
    requires next.status != Invalid ==> InMatrix(e.orders, next.floor, next.kind)
  {
    next.status != Invalid && e.orders[next.floor][next.kind].status == NotTaken
  }

  /** The previous active order is released when it is not a cab call, is
      Taken, and names a different cell from the new candidate. */
  function ReleaseOnSwitch(e: Elevator, next: Order): seq<Order> {
    if e.activeOrder.kind != Cab && !SameFloorAndType(next, e.activeOrder) && e.activeOrder.status == Taken
    then [WithStatus(e.activeOrder, NotTaken)]
    else []
  }

  /** If the candidate is still NotTaken, submit it to the driver and
      release the previous active order when it is being abandoned. */
  function StartNextOrder(e: Elevator, next: Order): (r: TimerOutcome)
    requires next.status != Invalid ==> InMatrix(e.orders, next.floor, next.kind)
    ensures r.orderChan == (if StillNotTaken(e, next) then [next] else [])
    ensures |r.tx| <= 1 && (r.tx != [] ==> r.orderChan != [])
    ensures forall m :: m in r.tx ==> m == WithStatus(e.activeOrder, NotTaken) && m.kind != Cab
  {
    if StillNotTaken(e, next) then TimerOutcome([next], ReleaseOnSwitch(e, next))
    else TimerOutcome([], [])
  }

  /** The previous active order is released exactly when the candidate is
      submitted, the previous order is a Taken hall call, and the two differ
      in floor or in type. */
  lemma ControlReleaseRule(e: Elevator, next: Order)
    requires next.status != Invalid ==> InMatrix(e.orders, next.floor, next.kind)
    ensures StartNextOrder(e, next).tx != [] <==>
      (StillNotTaken(e, next) && e.activeOrder.kind != Cab && e.activeOrder.status == Taken &&
       (next.floor != e.activeOrder.floor || next.kind != e.activeOrder.kind))
  {
  }

  // ---------------------------------------------------------------------
  // Buttons, network messages and the abandoned-claim sweep
  // ---------------------------------------------------------------------

  /** A button press is broadcast unless it is a cab call. */
  function NewButtonPress(o: Order): (tx: seq<Order>)
    ensures o.kind == Cab ==> tx == []
    ensures o.kind != Cab ==> tx == [o]
  {
    if o.kind != Cab then [o] else []
  }

  /** An order heard on the network is handed to the driver unchanged. */
  function NewNetworkMessage(o: Order): seq<Order> {
    [o]
  }

  /** The sweep can run: the car's matrix can be logged, there is one clock
      reading per cell, and the channel of capacity nfloors * nbuttons that
      the sweep fills before anything drains it has room for every timed-out
      cell. Go's `make` panics on a negative capacity, and a send to the full
      channel blocks the loop for ever. */
  predicate SweepDefined(e: Elevator, clock: seq<int>) {
    Printable(e) && |clock| == |Flatten(e.orders)| &&
    |SweepOrders(e.orders, clock)| <= e.nfloors * e.nbuttons
  }

  /** A car with `nfloors` rows of at most `nbuttons` cells, the shape
      NewElevator builds, can always run the sweep: the channel has room for
      every cell. */
  lemma SweepFitsChannel(e: Elevator, clock: seq<int>)
    requires |e.orders| == e.nfloors
    requires forall f :: 0 <= f < |e.orders| ==> |e.orders[f]| <= e.nbuttons
    requires |clock| == |Flatten(e.orders)|
    ensures SweepDefined(e, clock)
  {
    TimedOutAtLength(Flatten(e.orders), clock);
    FlattenLength(e.orders, e.nbuttons);
  }

  /** Every abandoned claim, resubmitted to the driver as NotTaken. */
  function SweepResubmissions(e: Elevator, clock: seq<int>): (r: seq<Order>)
    requires SweepDefined(e, clock)
    ensures |r| == |SweepOrders(e.orders, clock)| <= e.nfloors * e.nbuttons
    ensures forall i :: 0 <= i < |r| ==>
      r[i].status == NotTaken && SameFloorAndType(r[i], SweepOrders(e.orders, clock)[i])
  {
    var timedOut := SweepOrders(e.orders, clock);
    seq(|timedOut|, i requires 0 <= i < |timedOut| => WithStatus(timedOut[i], NotTaken))
  }

  /** Applies the orders in turn to the matrix. This is what the driver is
      taken to do with the orders it receives on `orderChan`; the driver
      itself is not part of this model. */
  function ApplyOrders(e: Elevator, os: seq<Order>): (r: Elevator)
    requires forall i :: 0 <= i < |os| ==> InMatrix(e.orders, os[i].floor, os[i].kind)
    ensures SameShape(r.orders, e.orders)
    decreases |os|
  {
    if |os| == 0 then e
    else ApplyOrders(AssignOrderToMatrix(e, os[0]), os[1..])
  }

  /** If every order of `os` aimed at cell (f, t) is NotTaken, that cell
      ends either unchanged or NotTaken, and NotTaken if one of them aims
      at it. */
  lemma {:induction false} ApplyNotTakenOrders(e: Elevator, os: seq<Order>, f: int, t: int)
    requires forall i :: 0 <= i < |os| ==> InMatrix(e.orders, os[i].floor, os[i].kind)
    requires InMatrix(e.orders, f, t)
    requires forall i :: 0 <= i < |os| && os[i].floor == f && os[i].kind == t ==> os[i].status == NotTaken
    ensures ApplyOrders(e, os).orders[f][t] == e.orders[f][t] ||
            ApplyOrders(e, os).orders[f][t].status == NotTaken
    ensures (exists i :: 0 <= i < |os| && os[i].floor == f && os[i].kind == t) ==>
            ApplyOrders(e, os).orders[f][t].status == NotTaken
    decreases |os|
  {
    if |os| > 0 {
      var e1 := AssignOrderToMatrix(e, os[0]);
      ApplyNotTakenOrders(e1, os[1..], f, t);
      if exists i :: 0 <= i < |os| && os[i].floor == f && os[i].kind == t {
        var i :| 0 <= i < |os| && os[i].floor == f && os[i].kind == t;
        if i > 0 {
          assert os[1..][i - 1] == os[i];
        }
      }
    }
  }

  /** If the driver applies the sweep's resubmissions, the matrix is
      healed: for a sweep whose clock readings lie between `lo` and `hi`,
      every resubmission names a cell, and no cell is left Taken past its
      timestamp at `lo`. */
  lemma SweepHealsMatrix(e: Elevator, clock: seq<int>, lo: int, hi: int)
    requires TakenCellsIndexed(e.orders) && SweepDefined(e, clock)
    requires forall i :: 0 <= i < |clock| ==> lo <= clock[i] <= hi
    ensures forall i :: 0 <= i < |SweepResubmissions(e, clock)| ==>
      InMatrix(e.orders, SweepResubmissions(e, clock)[i].floor, SweepResubmissions(e, clock)[i].kind)
    ensures forall f, t :: InMatrix(e.orders, f, t) ==>
      !IsTimedOut(ApplyOrders(e, SweepResubmissions(e, clock)).orders[f][t], lo)
  {
    var timedOut := SweepOrders(e.orders, clock);
    var os := SweepResubmissions(e, clock);
    forall i | 0 <= i < |os|
      ensures InMatrix(e.orders, os[i].floor, os[i].kind)
    {
      assert timedOut[i] in timedOut;
      SweepOrdersMembership(e.orders, clock, lo, hi, timedOut[i]);
    }
    forall f, t | InMatrix(e.orders, f, t)
      ensures !IsTimedOut(ApplyOrders(e, os).orders[f][t], lo)
    {
      ApplyNotTakenOrders(e, os, f, t);
      if IsTimedOut(e.orders[f][t], lo) {
        SweepOrdersMembership(e.orders, clock, lo, hi, e.orders[f][t]);
        var i :| 0 <= i < |timedOut| && timedOut[i] == e.orders[f][t];
        assert os[i].floor == f && os[i].kind == t;
      }
    }
  }

  // ---------------------------------------------------------------------
  // The control loop
  // ---------------------------------------------------------------------

  /** The loop's own state: the last snapshot and the pending candidate. */
  datatype LoopState = LoopState(elev: Elevator, next: Order)

  /** The events the loop selects over. A new snapshot carries the random
      draw made for its back-off; a sweep tick carries the clock readings
      its scan takes, one per cell. */
  datatype Event =
    | ElevatorUpdate(newElev: Elevator, draw: int)
    | OrderTimerFired
    | ButtonPress(pressed: Order)
    | NetworkOrder(heard: Order)
    | SweepTick(clock: seq<int>)

  /** What one event produces. `timer` is Some(delay) when the claim timer
      is re-armed, replacing any pending expiry. */
  datatype LoopOutput = LoopOutput(state: LoopState, orderChan: seq<Order>, tx: seq<Order>, timer: Option<int>)

  /** The pending candidate names an existing cell unless it is Invalid. */
  predicate NextInMatrix(s: LoopState) {
    s.next.status != Invalid ==> InMatrix(s.elev.orders, s.next.floor, s.next.kind)
  }

  /** The event can be handled without a Go panic, and the sweep without
      blocking on its own channel. */
  predicate StepDefined(s: LoopState, ev: Event) {
    match ev
    case ElevatorUpdate(n, draw) => Printable(n) && NextOrderDefined(n) && 0 <= draw < 2 * BackoffMicros
    case OrderTimerFired => NextInMatrix(s)
    case SweepTick(clock) => SweepDefined(s.elev, clock)
    case _ => true
  }

  /** The loop's state after an event: a snapshot replaces the car and the
      candidate, and every other event leaves both alone. */
  function StateAfter(s: LoopState, ev: Event): LoopState
    requires ev.ElevatorUpdate? ==> NextOrderDefined(ev.newElev)
  {
    if ev.ElevatorUpdate? then LoopState(ev.newElev, FindNextOrder(ev.newElev)) else s
  }

  /** Every event of the run can be handled in the state the run has
      reached by then. */
  predicate RunDefined(s: LoopState, evs: seq<Event>)
    decreases |evs|
  {
    |evs| == 0 || (StepDefined(s, evs[0]) && RunDefined(StateAfter(s, evs[0]), evs[1..]))
  }

  /** The loop starts from the driver's first snapshot and the zero order. */
  function InitialLoopState(first: Elevator): (s: LoopState)
    ensures NextInMatrix(s) && s.next.status == Invalid
  {
    LoopState(first, ZeroOrder)
  }

  /** One iteration of the control loop. */
  function Step(s: LoopState, ev: Event, eq: (Order, Order) -> bool): (out: LoopOutput)
    requires StepDefined(s, ev)
    ensures NextInMatrix(s) || ev.ElevatorUpdate? ==> NextInMatrix(out.state)
    ensures forall m :: m in out.tx ==> m.kind != Cab
    ensures out.timer.Some? ==> ev.ElevatorUpdate? && out.state.next.status != Invalid
    ensures out.state == StateAfter(s, ev)
    ensures ev.ButtonPress? ==> out.orderChan == [] && (out.tx == [] <==> ev.pressed.kind == Cab)
    ensures ev.NetworkOrder? ==> out.orderChan == [ev.heard] && out.tx == [] && out.timer == None
    ensures ev.ElevatorUpdate? ==> out.orderChan == []
    ensures ev.SweepTick? ==> out.tx == [] && out.orderChan == SweepResubmissions(s.elev, ev.clock)
    ensures ev.ElevatorUpdate? ==> forall m :: m in out.tx ==>
      m == ev.newElev.activeOrder || m == WithStatus(ev.newElev.activeOrder, NotTaken)
  {
    match ev
    case ElevatorUpdate(newElev, draw) =>
      var u := UpdatedElevatorState(newElev, s.elev, eq, draw);
      LoopOutput(LoopState(u.elev, u.next), [], u.tx, u.timer)
    case OrderTimerFired =>
      var r := StartNextOrder(s.elev, s.next);
      LoopOutput(s, r.orderChan, r.tx, None)
    case ButtonPress(o) =>
      LoopOutput(s, [], NewButtonPress(o), None)
    case NetworkOrder(o) =>
      LoopOutput(s, NewNetworkMessage(o), [], None)
    case SweepTick(clock) =>
      LoopOutput(s, SweepResubmissions(s.elev, clock), [], None)
  }

  /** A whole run of the loop: every broadcast it ever makes is a hall call,
      so cab calls never reach the network. */
  function Run(s: LoopState, evs: seq<Event>, eq: (Order, Order) -> bool): (tx: seq<Order>)
    requires NextInMatrix(s) && RunDefined(s, evs)
    ensures forall m :: m in tx ==> m.kind != Cab
    decreases |evs|
  {
    if |evs| == 0 then []
    else
      var out := Step(s, evs[0], eq);
      out.tx + Run(out.state, evs[1..], eq)
  }
}

=== FILE: costfunction.dfy ===
/**
 * The integer cost of serving a hall or cab call (costfunction/costfunction.go).
 *
 * The cost estimates how many floors a car travels before it can serve the
 * target order, given its floor, its motor direction and the order it is
 * serving. It works on the older order record and on the driver's state
 * record, which are defined here.
 */
module CostFunction {

  import opened Orders

  /** The motor directions the driver reports. */
  datatype MotorDirection = MotorUp | MotorDown | MotorStop

  /** The driver's view of the car: floor, motor direction, current order. */
  datatype ElevState = ElevState(currentFloor: int, direction: MotorDirection, order: LegacyOrder)

  const MaxFloor: int := 3
  const MinFloor: int := 0

  /** Floors travelled going up to the top and back down to the target. */
  function UpDown(c: int, t: int): int {
    (MaxFloor - c) + (MaxFloor - t)
  }

  /** Floors travelled going down to the bottom and back up to the target. */
  function DownUp(c: int, t: int): int {
    (c - MinFloor) + (t - MinFloor)
  }

  /** The direction the car is committed to. A hall order commits it to its
      own type; a cab order to the motor's direction, or, with the motor
      stopped, to up exactly when the target is above the car. */
  function EffectiveDirection(state: ElevState, target: int): (d: int)
    ensures state.order.kind != Cab ==> d == state.order.kind
    ensures state.order.kind == Cab ==> (d == HallUp || d == HallDown)
    ensures state.order.kind == Cab ==>
      (d == HallUp <==> state.direction == MotorUp ||
                        (state.direction == MotorStop && target > state.currentFloor))
  {
    if state.order.kind == Cab then
      match state.direction
      case MotorUp => HallUp
      case MotorDown => HallDown
      case MotorStop => if target > state.currentFloor then HallUp else HallDown
    else state.order.kind
  }

  /** The cost of `ord` for a car in `state`, exactly as the source computes
      it; -1 is the source's "invalid" answer, reached only at the target
      floor with a committed direction that is neither up nor down. */
  function Cost(ord: LegacyOrder, state: ElevState): int {
    var current := state.currentFloor;
    var target := ord.targetFloor;
    var orderDir := EffectiveDirection(state, target);
    if state.order.finished then
      FloorDistance(current, target)
    else if target == current then
      if orderDir == HallUp then
        (if state.direction == MotorDown then DownUp(current, target) else UpDown(current, target))
      else if orderDir == HallDown then
        (if state.direction == MotorUp then UpDown(current, target) else DownUp(current, target))
      else -1
    else if target > current then
      if orderDir == HallDown then
        (if state.direction == MotorUp then UpDown(current, target) else DownUp(current, target))
      else if ord.kind == HallDown then UpDown(current, target)
      else target - current
    else
      if orderDir == HallUp then
        (if state.direction == MotorDown then DownUp(current, target) else UpDown(current, target))
      else if ord.kind == HallUp then DownUp(current, target)
      else current - target
  }

  /** A car whose order is finished pays the plain distance. */
  lemma CostWhenFinished(ord: LegacyOrder, state: ElevState)
    requires state.order.finished
    ensures Cost(ord, state) == FloorDistance(state.currentFloor, ord.targetFloor)
  {
  }

  /** Going up, a target that also wants to go up (or a cab call) costs the
      distance; one that wants to go down costs the trip to the top and
      back. */
  lemma CostTargetAboveGoingUp(ord: LegacyOrder, state: ElevState)
    requires !state.order.finished && ord.targetFloor > state.currentFloor
    requires EffectiveDirection(state, ord.targetFloor) == HallUp
    ensures ord.kind == HallDown ==> Cost(ord, state) == UpDown(state.currentFloor, ord.targetFloor)
    ensures ord.kind != HallDown ==> Cost(ord, state) == ord.targetFloor - state.currentFloor
  {
  }

  /** Going down, a target below that does not want to go up costs the
      distance; one that wants to go up costs the trip to the bottom and
      back. */
  lemma CostTargetBelowGoingDown(ord: LegacyOrder, state: ElevState)
    requires !state.order.finished && ord.targetFloor < state.currentFloor
    requires EffectiveDirection(state, ord.targetFloor) == HallDown
    ensures ord.kind == HallUp ==> Cost(ord, state) == DownUp(state.currentFloor, ord.targetFloor)
    ensures ord.kind != HallUp ==> Cost(ord, state) == state.currentFloor - ord.targetFloor
  {
  }

  /** At the target floor the car pays a full detour: down-and-up when it
      is moving down, up-and-down when it is moving up, and otherwise the
      detour that matches its committed direction. */
  lemma CostAtTarget(ord: LegacyOrder, state: ElevState)
    requires !state.order.finished && ord.targetFloor == state.currentFloor
    requires state.order.kind == HallUp || state.order.kind == HallDown || state.order.kind == Cab
    ensures state.direction == MotorDown ==> Cost(ord, state) == DownUp(state.currentFloor, ord.targetFloor)
    ensures state.direction == MotorUp ==> Cost(ord, state) == UpDown(state.currentFloor, ord.targetFloor)
    ensures state.direction == MotorStop ==>
      Cost(ord, state) == (if EffectiveDirection(state, ord.targetFloor) == HallUp
                           then UpDown(state.currentFloor, ord.targetFloor)
                           else DownUp(state.currentFloor, ord.targetFloor))
  {
  }

  /** In the four-floor building with valid button types the cost is never
      the invalid answer: it lies in 0..6 and is at least the distance
      between the car and the target. */
  lemma CostRange(ord: LegacyOrder, state: ElevState)
    requires MinFloor <= ord.targetFloor <= MaxFloor && MinFloor <= state.currentFloor <= MaxFloor
    requires 0 <= state.order.kind <= Cab
    ensures Cost(ord, state) != -1
    ensures FloorDistance(state.currentFloor, ord.targetFloor) <= Cost(ord, state) <= 2 * MaxFloor
  {
  }

  /** Reflecting the building (floor f to 3 - f) swaps up and down. */
  function MirrorKind(k: int): int {
    if k == HallUp then HallDown else if k == HallDown then HallUp else k
  }

  function MirrorDirection(d: MotorDirection): MotorDirection {
    match d
    case MotorUp => MotorDown
    case MotorDown => MotorUp
    case MotorStop => MotorStop
  }

  function MirrorOrder(o: LegacyOrder): LegacyOrder {
    LegacyOrder(MaxFloor - o.targetFloor, MirrorKind(o.kind), o.finished)
  }

  function MirrorState(s: ElevState): ElevState {
    ElevState(MaxFloor - s.currentFloor, MirrorDirection(s.direction), MirrorOrder(s.order))
  }

  /** The cost is symmetric under turning the building upside down, with a
      single exception: a stopped car serving a cab call at the target's
      floor commits to down, whichever way up the building is. */
  lemma CostMirrorSymmetric(ord: LegacyOrder, state: ElevState)
    requires 0 <= state.order.kind <= Cab
    requires !(state.order.kind == Cab && state.direction == MotorStop &&
               ord.targetFloor == state.currentFloor && !state.order.finished)
    ensures Cost(MirrorOrder(ord), MirrorState(state)) == Cost(ord, state)
  {
  }

  /** The exception: a stopped car at floor 0 serving a cab order prices a
      call at its own floor at 0, but the mirrored car at floor 3 also
      commits to down and prices the mirrored call at 6. */
  lemma StoppedCabAtTargetIsAsymmetric()
    ensures var ord := LegacyOrder(0, HallUp, false);
            var state := ElevState(0, MotorStop, LegacyOrder(0, Cab, false));
            Cost(ord, state) == 0 && Cost(MirrorOrder(ord), MirrorState(state)) == 6
  {
  }

  /** The nineteen cases of the source's TestCost, with their stated
      answers (the fields a case leaves out are Go's zero values). */
  lemma TestCostCases()
    ensures Cost(LegacyOrder(2, HallUp, false), ElevState(0, MotorUp, LegacyOrder(0, HallUp, false))) == 2
    ensures Cost(LegacyOrder(2, HallDown, false), ElevState(0, MotorUp, LegacyOrder(0, HallUp, false))) == 4
    ensures Cost(LegacyOrder(2, HallUp, false), ElevState(1, MotorUp, LegacyOrder(0, HallUp, false))) == 1
    ensures Cost(LegacyOrder(2, HallDown, false), ElevState(1, MotorUp, LegacyOrder(0, HallUp, false))) == 3
    ensures Cost(LegacyOrder(2, Cab, false), ElevState(1, MotorUp, LegacyOrder(0, HallUp, false))) == 1
    ensures Cost(LegacyOrder(2, Cab, false), ElevState(1, MotorDown, LegacyOrder(0, HallDown, false))) == 3
    ensures Cost(LegacyOrder(2, HallUp, false), ElevState(1, MotorDown, LegacyOrder(0, HallDown, false))) == 3
    ensures Cost(LegacyOrder(1, HallUp, false), ElevState(2, MotorUp, LegacyOrder(0, HallUp, false))) == 3
    ensures Cost(LegacyOrder(1, HallDown, false), ElevState(2, MotorDown, LegacyOrder(0, HallDown, false))) == 1
    ensures Cost(LegacyOrder(1, HallUp, false), ElevState(2, MotorDown, LegacyOrder(0, HallDown, false))) == 3
    ensures Cost(LegacyOrder(1, Cab, false), ElevState(2, MotorDown, LegacyOrder(0, HallDown, false))) == 1
    ensures Cost(LegacyOrder(2, Cab, false), ElevState(2, MotorDown, LegacyOrder(0, HallDown, false))) == 4
    ensures Cost(LegacyOrder(2, Cab, false), ElevState(2, MotorUp, LegacyOrder(0, HallUp, false))) == 2
    ensures Cost(LegacyOrder(3, HallDown, false), ElevState(1, MotorDown, LegacyOrder(0, HallDown, false))) == 4
    ensures Cost(LegacyOrder(3, HallDown, false), ElevState(3, MotorStop, LegacyOrder(0, Cab, true))) == 0
    ensures Cost(LegacyOrder(0, HallDown, false), ElevState(1, MotorStop, LegacyOrder(3, HallUp, false))) == 5
    ensures Cost(LegacyOrder(0, Cab, false), ElevState(0, MotorUp, LegacyOrder(2, HallDown, false))) == 6
    ensures Cost(LegacyOrder(2, HallDown, false), ElevState(0, MotorUp, LegacyOrder(3, HallDown, false))) == 4
    ensures Cost(LegacyOrder(3, Cab, false), ElevState(3, MotorDown, LegacyOrder(1, HallUp, false))) == 6
  {
  }
}

=== FILE: decimal.dfy ===
/**
 * Bytes and the decimal text the broadcast frames carry: Go's `%0Nd`
 * formatting of a non-negative integer and the short-input path of
 * `strconv.Atoi`.
 */
module Decimal {

  import opened Wrappers

  newtype byte = x: int | 0 <= x < 256

  /** ASCII '0', '+' and '-'. */
  const DigitZero: byte := 48
  const PlusSign: byte := 43
  const MinusSign: byte := 45

  predicate IsDigit(b: byte) {
    DigitZero <= b <= DigitZero + 9
  }

  function DigitByte(d: int): (b: byte)
    requires 0 <= d < 10
    ensures IsDigit(b) && b as int - DigitZero as int == d
  {
    (DigitZero as int + d) as byte
  }

  function Pow10(n: nat): (p: nat)
    ensures p >= 1
  {
    if n == 0 then 1 else 10 * Pow10(n - 1)
  }

  /** The last `w` decimal digits of `v`, most significant first. */
  function FixedDigits(v: nat, w: nat): (s: seq<byte>)
    ensures |s| == w
    ensures forall i :: 0 <= i < w ==> IsDigit(s[i])
  {
    if w == 0 then [] else FixedDigits(v / 10, w - 1) + [DigitByte(v % 10)]
  }

  /** The number of decimal digits Go prints for `v` (one for zero). */
  function NumDigits(v: nat): (n: nat)
    ensures n >= 1
  {
    if v < 10 then 1 else 1 + NumDigits(v / 10)
  }

  /** A value of n + 1 digits, between 10^n and 10^(n+1), prints as n + 1
      digits. */
  lemma {:induction false} NumDigitsExact(v: nat, n: nat)
    requires Pow10(n) <= v < Pow10(n + 1)
    ensures NumDigits(v) == n + 1
    decreases n
  {
    if n > 0 {
      assert Pow10(n) == 10 * Pow10(n - 1);
      NumDigitsExact(v / 10, n - 1);
    }
  }

  /** Go's `fmt.Sprintf("%0*d", w, v)` for v >= 0: zero-padded to `w`
      digits, never truncated when `v` has more. */
  function FormatPadded(v: nat, w: nat): (s: seq<byte>)
    ensures v < Pow10(w) ==> |s| == w
    ensures forall i :: 0 <= i < |s| ==> IsDigit(s[i])
  {
    if v < Pow10(w) then FixedDigits(v, w) else FixedDigits(v, NumDigits(v))
  }

  /** The value of a string of digits. */
  function Value(s: seq<byte>): nat
    requires forall i :: 0 <= i < |s| ==> IsDigit(s[i])
  {
    if |s| == 0 then 0
    else
      assert IsDigit(s[|s| - 1]);
      10 * Value(s[..|s| - 1]) + (s[|s| - 1] as int - DigitZero as int)
  }

  /** Reading back a value written in at least as many digits as it needs
      gives the value. */
  lemma {:induction false} FixedDigitsRoundTrip(v: nat, w: nat)
    requires v < Pow10(w)
    ensures Value(FixedDigits(v, w)) == v
    decreases w
  {
    if w > 0 {
      var s := FixedDigits(v, w);
      assert s[..|s| - 1] == FixedDigits(v / 10, w - 1);
      FixedDigitsRoundTrip(v / 10, w - 1);
    }
  }

  /** Go's `strconv.Atoi` on inputs shorter than 19 bytes: an optional
      sign followed by at least one byte, all of them digits, gives the
      value, negated after '-'; anything else is a syntax error. */
  function Atoi(s: seq<byte>): (r: Option<int>)
    requires 0 < |s| < 19
    ensures r.Some? ==> exists i :: 0 <= i < |s| && IsDigit(s[i])
    ensures (forall i :: 0 <= i < |s| ==> IsDigit(s[i])) ==> r == Some(Value(s))
    ensures (exists i :: 0 < i < |s| && !IsDigit(s[i])) ==> r == None
    ensures |s| > 1 && (s[0] == PlusSign || s[0] == MinusSign) && (forall i :: 1 <= i < |s| ==> IsDigit(s[i])) ==>
      r == Some(if s[0] == MinusSign then -(Value(s[1..]) as int) else Value(s[1..]))
    ensures |s| == 1 && (s[0] == PlusSign || s[0] == MinusSign) ==> r == None
    ensures s[0] != PlusSign && s[0] != MinusSign && !IsDigit(s[0]) ==> r == None
  {
    var signed := s[0] == PlusSign || s[0] == MinusSign;
    var digits := if signed then s[1..] else s;
    if |digits| == 0 then None
    else if forall i :: 0 <= i < |digits| ==> IsDigit(digits[i]) then
      assert IsDigit(s[|s| - 1]);
      var n: int := Value(digits);
      Some(if s[0] == MinusSign then -n else n)
    else
      None
  }

  /** A non-negative value below 10^w, formatted in w digits, parses back
      with Atoi. */
  lemma AtoiFormatted(v: nat, w: nat)
    requires 0 < w < 19 && v < Pow10(w)
    ensures Atoi(FormatPadded(v, w)) == Some(v)
  {
    FixedDigitsRoundTrip(v, w);
  }
}

=== FILE: elevator.dfy ===
/**
 * The elevator record and its order matrix (elevTypes/elevator/elevator.go):
 * construction, single-cell assignment, membership test, the scan for
 * abandoned claims and the status-digit rendering of the matrix.
 */
module Elevators {

  import opened Wrappers
  import opened Orders

  /** Motor direction of the car (Up = 1, Down = -1, Stop = 0 in the source). */
  datatype Direction = Up | Down | Stop

  /** Control state of the car (Init = 0 up to Error = 4 in the source). */
  datatype ElevatorState = Init | Idle | Moving | DoorOpen | Error

  /** The order matrix: one row per floor, one cell per button type. Rows are
      Go slices, so nothing forces them to share a length. */
  type Matrix = seq<seq<Order>>

  /** The car and its view of every order. `floor` is -1 while unknown. */
  datatype Elevator = Elevator(
    activeOrder: Order,
    floor: int,
    direction: Direction,
    state: ElevatorState,
    nfloors: int,
    nbuttons: int,
    orders: Matrix)

  /** (f, t) indexes a cell of `m`; Go panics on any other index. */
  predicate InMatrix(m: Matrix, f: int, t: int) {
    0 <= f < |m| && 0 <= t < |m[f]|
  }

  /** The car's matrix can be rendered: `OrderMatrixToString` indexes the
      first `nfloors` rows, and Go panics when there are fewer. */
  predicate Printable(e: Elevator) {
    e.nfloors <= |e.orders|
  }

  /** `a` and `b` have the same rows of the same lengths. */
  predicate SameShape(a: Matrix, b: Matrix) {
    |a| == |b| && forall f :: 0 <= f < |a| ==> |a[f]| == |b[f]|
  }

  /** Every Taken cell records its own position. Assignment keeps this. */
  ghost predicate TakenCellsIndexed(m: Matrix) {
    forall f, t :: InMatrix(m, f, t) && m[f][t].status == Taken ==>
      m[f][t].floor == f && m[f][t].kind == t
  }

  // ---------------------------------------------------------------------
  // Construction and assignment
  // ---------------------------------------------------------------------

  /** A fresh car: `nfloors` rows of `nbuttons` zero-valued orders, state
      Idle, every other field at its zero value. Go's `make` panics on a
      negative length. */
  function NewElevator(nfloors: int, nbuttons: int): (e: Elevator)
    requires nfloors >= 0 && nbuttons >= 0
    ensures |e.orders| == nfloors && e.nfloors == nfloors && e.nbuttons == nbuttons
    ensures forall f :: 0 <= f < nfloors ==> |e.orders[f]| == nbuttons
    ensures forall f, t :: InMatrix(e.orders, f, t) ==> e.orders[f][t] == ZeroOrder
    ensures e.state == Idle
    ensures e.activeOrder == ZeroOrder && e.floor == 0 && e.direction == Stop
  {
    Elevator(ZeroOrder, 0, Stop, Idle, nfloors, nbuttons,
             seq(nfloors, _ => seq(nbuttons, _ => ZeroOrder)))
  }

  /** Stores `o` in the cell named by its own floor and type. */
  function AssignOrderToMatrix(e: Elevator, o: Order): (r: Elevator)
    requires InMatrix(e.orders, o.floor, o.kind)
    ensures SameShape(r.orders, e.orders)
    ensures r.orders[o.floor][o.kind] == o
    ensures forall f, t :: InMatrix(e.orders, f, t) && (f != o.floor || t != o.kind) ==>
      r.orders[f][t] == e.orders[f][t]
    ensures r.(orders := e.orders) == e
  {
    e.(orders := e.orders[o.floor := e.orders[o.floor][o.kind := o]])
  }

  /** Assigning the same order twice is the same as assigning it once. */
  lemma AssignOrderIdempotent(e: Elevator, o: Order)
    requires InMatrix(e.orders, o.floor, o.kind)
    ensures AssignOrderToMatrix(AssignOrderToMatrix(e, o), o) == AssignOrderToMatrix(e, o)
  {
    var once := AssignOrderToMatrix(e, o);
    var twice := AssignOrderToMatrix(once, o);
    assert twice.orders[o.floor] == once.orders[o.floor];
    assert twice.orders == once.orders;
  }

  /** Assignments to different cells commute. */
  lemma AssignOrdersCommute(e: Elevator, a: Order, b: Order)
    requires InMatrix(e.orders, a.floor, a.kind) && InMatrix(e.orders, b.floor, b.kind)
    requires !SameFloorAndType(a, b)
    ensures AssignOrderToMatrix(AssignOrderToMatrix(e, a), b)
         == AssignOrderToMatrix(AssignOrderToMatrix(e, b), a)
  {
    var ab := AssignOrderToMatrix(AssignOrderToMatrix(e, a), b);
    var ba := AssignOrderToMatrix(AssignOrderToMatrix(e, b), a);
    forall f | 0 <= f < |e.orders|
      ensures ab.orders[f] == ba.orders[f]
    {
      assert |ab.orders[f]| == |ba.orders[f]|;
      forall t | 0 <= t < |e.orders[f]|
        ensures ab.orders[f][t] == ba.orders[f][t]
      {
      }
    }
    assert ab.orders == ba.orders;
  }

  /** Assignment keeps every Taken cell at its own position. */
  lemma AssignKeepsTakenCellsIndexed(e: Elevator, o: Order)
    requires InMatrix(e.orders, o.floor, o.kind)
    requires TakenCellsIndexed(e.orders)
    ensures TakenCellsIndexed(AssignOrderToMatrix(e, o).orders)
  {
  }

  // ---------------------------------------------------------------------
  // Membership
  // ---------------------------------------------------------------------

  /** Some cell of `m` is `eq`-equal to `o`. */
  ghost predicate MatrixContains(m: Matrix, o: Order, eq: (Order, Order) -> bool) {
    exists f, t :: InMatrix(m, f, t) && eq(m[f][t], o)
  }

  /** Scans the matrix floor by floor for a cell `eq`-equal to `o`; `eq` is
      the comparison the order package supplies. */
  method SameOrderInMatrix(e: Elevator, o: Order, eq: (Order, Order) -> bool) returns (found: bool)
    ensures found <==> MatrixContains(e.orders, o, eq)
  {
    var f := 0;
    while f < |e.orders|
      invariant 0 <= f <= |e.orders|
      invariant forall g, t :: 0 <= g < f && 0 <= t < |e.orders[g]| ==> !eq(e.orders[g][t], o)
    {
      var t := 0;
      while t < |e.orders[f]|
        invariant 0 <= t <= |e.orders[f]|
        invariant forall u :: 0 <= u < t ==> !eq(e.orders[f][u], o)
      {
        if eq(e.orders[f][t], o) {
          return true;
        }
        t := t + 1;
      }
      f := f + 1;
    }
    return false;
  }

  /** After an assignment the matrix contains the assigned order, for any
      reflexive comparison. */
  lemma AssignedOrderIsContained(e: Elevator, o: Order, eq: (Order, Order) -> bool)
    requires InMatrix(e.orders, o.floor, o.kind)
    requires eq(o, o)
    ensures MatrixContains(AssignOrderToMatrix(e, o).orders, o, eq)
  {
    var r := AssignOrderToMatrix(e, o);
    assert InMatrix(r.orders, o.floor, o.kind) && eq(r.orders[o.floor][o.kind], o);
  }

  // ---------------------------------------------------------------------
  // Abandoned claims
  // ---------------------------------------------------------------------

  /** A claim is abandoned once the clock has reached its timestamp. */
  predicate IsTimedOut(o: Order, now: int) {
    o.status == Taken && now >= o.localTimeStamp
  }

  /** The cells of the matrix in floor-major, then type order. */
  function Flatten(m: Matrix): seq<Order> {
    if |m| == 0 then [] else Flatten(m[..|m| - 1]) + m[|m| - 1]
  }

  /** The timed-out orders of `s`, in their order in `s`. */
  function TimedOutIn(s: seq<Order>, now: int): seq<Order> {
    if |s| == 0 then []
    else TimedOutIn(s[..|s| - 1], now) + (if IsTimedOut(s[|s| - 1], now) then [s[|s| - 1]] else [])
  }

  /** Reference definition of the sweep: every timed-out cell, once, in
      floor-major then type order. */
  function TimedOutOrders(m: Matrix, now: int): seq<Order> {
    TimedOutIn(Flatten(m), now)
  }

  /** The sweep as the source runs it, reading the clock once per cell:
      `clock[i]` is the reading taken at the i-th cell of `s`. */
  function TimedOutAt(s: seq<Order>, clock: seq<int>): seq<Order>
    requires |clock| == |s|
  {
    if |s| == 0 then []
    else
      TimedOutAt(s[..|s| - 1], clock[..|s| - 1]) +
      (if IsTimedOut(s[|s| - 1], clock[|s| - 1]) then [s[|s| - 1]] else [])
  }

  /** The sweep of a whole matrix, one clock reading per cell in floor-major
      then type order. */
  function SweepOrders(m: Matrix, clock: seq<int>): seq<Order>
    requires |clock| == |Flatten(m)|
  {
    TimedOutAt(Flatten(m), clock)
  }

  /** The rows before `f` and row `f` together are no longer than the whole
      matrix, flattened. */
  lemma {:induction false} FlattenPrefixLength(m: Matrix, f: nat)
    requires f < |m|
    ensures |Flatten(m[..f])| + |m[f]| <= |Flatten(m)|
    decreases |m| - f
  {
    assert m[..f + 1][..f] == m[..f];
    if f + 1 < |m| {
      FlattenPrefixLength(m, f + 1);
    } else {
      assert m[..f + 1] == m;
    }
  }

  /** The scan of the source: two nested loops over the matrix that read the
      clock at every cell and emit every Taken cell whose timestamp that
      reading has reached. `clock` holds the readings in visiting order. The
      matrix is logged first, which needs a printable car. */
  method CheckOrderTimestamp(e: Elevator, clock: seq<int>) returns (timedOut: seq<Order>)
    requires Printable(e)
    requires |clock| == |Flatten(e.orders)|
    ensures timedOut == SweepOrders(e.orders, clock)
  {
    timedOut := [];
    var f := 0;
    var i := 0;
    while f < |e.orders|
      invariant 0 <= f <= |e.orders|
      invariant i == |Flatten(e.orders[..f])| <= |clock|
      invariant timedOut == TimedOutAt(Flatten(e.orders[..f]), clock[..i])
    {
      FlattenPrefixLength(e.orders, f);
      var t := 0;
      assert e.orders[f][..0] == [];
      assert Flatten(e.orders[..f]) + e.orders[f][..0] == Flatten(e.orders[..f]);
      while t < |e.orders[f]|
        invariant 0 <= t <= |e.orders[f]|
        invariant i == |Flatten(e.orders[..f])| + t
        invariant timedOut == TimedOutAt(Flatten(e.orders[..f]) + e.orders[f][..t], clock[..i])
      {
        var s := Flatten(e.orders[..f]) + e.orders[f][..t];
        assert (s + [e.orders[f][t]])[..|s|] == s;
        assert clock[..i + 1][..i] == clock[..i];
        if IsTimedOut(e.orders[f][t], clock[i]) {
          timedOut := timedOut + [e.orders[f][t]];
        }
        assert e.orders[f][..t + 1] == e.orders[f][..t] + [e.orders[f][t]];
        assert Flatten(e.orders[..f]) + e.orders[f][..t + 1] == s + [e.orders[f][t]];
        t := t + 1;
        i := i + 1;
      }
      assert e.orders[..f + 1][..f] == e.orders[..f];
      assert e.orders[f][..|e.orders[f]|] == e.orders[f];
      f := f + 1;
    }
    assert e.orders[..|e.orders|] == e.orders;
    assert clock[..i] == clock;
  }

  /** The sweep reports each cell at most once. */
  lemma {:induction false} TimedOutAtLength(s: seq<Order>, clock: seq<int>)
    requires |clock| == |s|
    ensures |TimedOutAt(s, clock)| <= |s|
    decreases |s|
  {
    if |s| > 0 {
      TimedOutAtLength(s[..|s| - 1], clock[..|s| - 1]);
    }
  }

  /** A matrix whose rows hold at most `b` cells has at most |m| * b cells. */
  lemma {:induction false} FlattenLength(m: Matrix, b: int)
    requires forall f :: 0 <= f < |m| ==> |m[f]| <= b
    ensures |Flatten(m)| <= |m| * b
    decreases |m|
  {
    if |m| > 0 {
      FlattenLength(m[..|m| - 1], b);
      assert |Flatten(m)| == |Flatten(m[..|m| - 1])| + |m[|m| - 1]|;
      assert (|m| - 1) * b + b == |m| * b;
    }
  }

  /** Under a single reading for every cell the sweep is the reference
      sweep. */
  lemma {:induction false} TimedOutAtConstant(s: seq<Order>, clock: seq<int>, now: int)
    requires |clock| == |s|
    requires forall i :: 0 <= i < |clock| ==> clock[i] == now
    ensures TimedOutAt(s, clock) == TimedOutIn(s, now)
    decreases |s|
  {
    if |s| > 0 {
      TimedOutAtConstant(s[..|s| - 1], clock[..|s| - 1], now);
    }
  }

  /** With every reading between `lo` and `hi`, the sweep reports every
      order already timed out at `lo`, and only orders timed out by `hi`. */
  lemma {:induction false} TimedOutAtBetween(s: seq<Order>, clock: seq<int>, lo: int, hi: int, x: Order)
    requires |clock| == |s|
    requires forall i :: 0 <= i < |clock| ==> lo <= clock[i] <= hi
    ensures x in s && IsTimedOut(x, lo) ==> x in TimedOutAt(s, clock)
    ensures x in TimedOutAt(s, clock) ==> x in s && IsTimedOut(x, hi)
    decreases |s|
  {
    if |s| > 0 {
      TimedOutAtBetween(s[..|s| - 1], clock[..|s| - 1], lo, hi, x);
      assert s == s[..|s| - 1] + [s[|s| - 1]];
    }
  }

  lemma {:induction false} TimedOutInMembership(s: seq<Order>, now: int, x: Order)
    ensures x in TimedOutIn(s, now) <==> x in s && IsTimedOut(x, now)
    decreases |s|
  {
    if |s| > 0 {
      TimedOutInMembership(s[..|s| - 1], now, x);
      assert s == s[..|s| - 1] + [s[|s| - 1]];
    }
  }

  lemma {:induction false} FlattenMembership(m: Matrix, x: Order)
    ensures x in Flatten(m) <==> exists f, t :: InMatrix(m, f, t) && m[f][t] == x
    decreases |m|
  {
    if |m| > 0 {
      var init := m[..|m| - 1];
      FlattenMembership(init, x);
      if x in Flatten(m) {
        if x in Flatten(init) {
          var f, t :| InMatrix(init, f, t) && init[f][t] == x;
          assert InMatrix(m, f, t) && m[f][t] == x;
        } else {
          assert x in m[|m| - 1];
          var t :| 0 <= t < |m[|m| - 1]| && m[|m| - 1][t] == x;
          assert InMatrix(m, |m| - 1, t);
        }
      } else {
        forall f, t | InMatrix(m, f, t)
          ensures m[f][t] != x
        {
          if f < |m| - 1 {
            assert InMatrix(init, f, t);
          } else {
            assert m[f][t] in m[|m| - 1];
          }
        }
      }
    }
  }

  /** An order is reported by the sweep exactly when it is a Taken cell of
      the matrix whose timestamp the clock has reached. */
  lemma TimedOutOrdersMembership(m: Matrix, now: int, x: Order)
    ensures x in TimedOutOrders(m, now) <==>
      IsTimedOut(x, now) && exists f, t :: InMatrix(m, f, t) && m[f][t] == x
  {
    TimedOutInMembership(Flatten(m), now, x);
    FlattenMembership(m, x);
  }

  /** The matrix form, for a sweep whose readings lie between `lo` and `hi`:
      every cell Taken past its timestamp at `lo` is reported, and every
      reported order is a cell of the matrix Taken past its timestamp by
      `hi`. */
  lemma SweepOrdersMembership(m: Matrix, clock: seq<int>, lo: int, hi: int, x: Order)
    requires |clock| == |Flatten(m)|
    requires forall i :: 0 <= i < |clock| ==> lo <= clock[i] <= hi
    ensures (IsTimedOut(x, lo) && exists f, t :: InMatrix(m, f, t) && m[f][t] == x) ==>
      x in SweepOrders(m, clock)
    ensures x in SweepOrders(m, clock) ==>
      IsTimedOut(x, hi) && exists f, t :: InMatrix(m, f, t) && m[f][t] == x
  {
    TimedOutAtBetween(Flatten(m), clock, lo, hi, x);
    FlattenMembership(m, x);
  }

  // ---------------------------------------------------------------------
  // Matrix rendering
  // ---------------------------------------------------------------------

  /** The decimal digit printed for a status. */
  function StatusDigit(s: Status): char {
    ('0' as int + StatusCode(s)) as char
  }

  /** One row: its status digits, in type order. */
  function RowString(row: seq<Order>): string {
    if |row| == 0 then [] else [StatusDigit(row[0].status)] + RowString(row[1..])
  }

  /** Each row's digits followed by one space. */
  function RowsString(rows: Matrix): string {
    if |rows| == 0 then [] else RowString(rows[0]) + " " + RowsString(rows[1..])
  }

  /** The rows the rendering covers: the first `nfloors` (none if negative). */
  function PrintedRows(e: Elevator): Matrix
    requires Printable(e)
  {
    if e.nfloors <= 0 then [] else e.orders[..e.nfloors]
  }

  /** The status of every cell of a row. */
  function Statuses(row: seq<Order>): (r: seq<Status>)
    ensures |r| == |row|
    ensures forall t :: 0 <= t < |row| ==> r[t] == row[t].status
  {
    if |row| == 0 then [] else [row[0].status] + Statuses(row[1..])
  }

  /** The status of every cell of a matrix. */
  function StatusMatrix(rows: Matrix): (r: seq<seq<Status>>)
    ensures |r| == |rows|
    ensures forall f :: 0 <= f < |rows| ==> r[f] == Statuses(rows[f])
  {
    if |rows| == 0 then [] else [Statuses(rows[0])] + StatusMatrix(rows[1..])
  }

  /** The status matrix of the printed rows. */
  function StatusRows(e: Elevator): seq<seq<Status>>
    requires Printable(e)
  {
    StatusMatrix(PrintedRows(e))
  }

  /** Renders the first `nfloors` rows as status digits, one space after
      each row. Go panics when `nfloors` exceeds the number of rows. */
  function OrderMatrixToString(e: Elevator): (s: string)
    requires Printable(e)
    ensures ' ' in s <==> e.nfloors > 0
  {
    var rows := PrintedRows(e);
    assert |rows| > 0 ==> RowsString(rows)[|RowString(rows[0])|] == ' ';
    RowsString(rows)
  }

  // Parsing the rendering back: the partner of OrderMatrixToString.

  /** Index of the first space of `s`, or |s| if there is none. */
  function IndexOfSpace(s: string): (i: nat)
    ensures i <= |s|
    ensures i < |s| ==> s[i] == ' '
    ensures forall j :: 0 <= j < i ==> s[j] != ' '
  {
    if |s| == 0 then 0 else if s[0] == ' ' then 0 else 1 + IndexOfSpace(s[1..])
  }

  function ParseRow(s: string): Option<seq<Status>> {
    if |s| == 0 then Some([])
    else match StatusOfCode(s[0] as int - '0' as int)
      case None => None
      case Some(st) =>
        match ParseRow(s[1..])
        case None => None
        case Some(rest) => Some([st] + rest)
  }

  /** Reads a rendered matrix: rows of status digits, each ended by a space. */
  function ParseMatrixString(s: string): Option<seq<seq<Status>>>
    decreases |s|
  {
    if |s| == 0 then Some([])
    else
      var i := IndexOfSpace(s);
      if i == |s| then None
      else match ParseRow(s[..i])
        case None => None
        case Some(row) =>
          match ParseMatrixString(s[i + 1..])
          case None => None
          case Some(rows) => Some([row] + rows)
  }

  lemma {:induction false} RowRoundTrip(row: seq<Order>)
    ensures ' ' !in RowString(row)
    ensures ParseRow(RowString(row)) == Some(Statuses(row))
    decreases |row|
  {
    if |row| > 0 {
      RowRoundTrip(row[1..]);
      var s := RowString(row);
      assert s[1..] == RowString(row[1..]);
      assert StatusOfCode(s[0] as int - '0' as int) == Some(row[0].status);
    }
  }

  lemma IndexOfSpaceAfterRow(d: string, rest: string)
    requires ' ' !in d
    ensures IndexOfSpace(d + " " + rest) == |d|
  {
    var s := d + " " + rest;
    assert s[|d|] == ' ';
    assert forall j :: 0 <= j < |d| ==> s[j] == d[j];
  }

  lemma {:induction false} RowsRoundTrip(rows: Matrix)
    ensures ParseMatrixString(RowsString(rows)) == Some(StatusMatrix(rows))
    decreases |rows|
  {
    if |rows| > 0 {
      var d := RowString(rows[0]);
      var rest := RowsString(rows[1..]);
      RowRoundTrip(rows[0]);
      RowsRoundTrip(rows[1..]);
      IndexOfSpaceAfterRow(d, rest);
      var s := RowsString(rows);
      assert s == d + " " + rest;
      assert s[..|d|] == d;
      assert s[|d| + 1..] == rest;
    }
  }

  /** Reading back the rendering yields the status of every printed cell:
      the rendering loses nothing but the non-status fields. */
  lemma MatrixStringRoundTrip(e: Elevator)
    requires Printable(e)
    ensures ParseMatrixString(OrderMatrixToString(e)) == Some(StatusRows(e))
  {
    RowsRoundTrip(PrintedRows(e));
  }
}

=== FILE: mainloop.dfy ===
/**
 * The older copy of the assignment protocol in main.go.
 *
 * Its snapshot, button, network and sweep handlers are the same as those of
 * the control loop and are reused from module Control. Two things are its
 * own: the claim-timer branch, whose release rule asks that the candidate
 * differ from the previous active order in floor AND in type, and the
 * resume branch, which resubmits the restored active order for execution.
 */
module MainLoop {

  import opened Wrappers
  import opened Orders
  import opened Elevators
  import opened Control

  /** main.go's release rule: the previous active order is released only
      when it is a Taken hall call and the candidate differs from it in
      floor and also in type. */
  function ReleaseOnSwitchBoth(e: Elevator, next: Order): seq<Order> {
    if e.activeOrder.kind != Cab && next.floor != e.activeOrder.floor &&
       next.kind != e.activeOrder.kind && e.activeOrder.status == Taken
    then [WithStatus(e.activeOrder, NotTaken)]
    else []
  }

  /** The claim-timer branch of main's loop. It submits exactly what the
      control loop submits and releases at most what the control loop
      releases. */
  function OnOrderTimer(e: Elevator, next: Order): (r: TimerOutcome)
    requires next.status != Invalid ==> InMatrix(e.orders, next.floor, next.kind)
    ensures r.orderChan == StartNextOrder(e, next).orderChan
    ensures forall m :: m in r.tx ==> m in StartNextOrder(e, next).tx
    ensures forall m :: m in r.tx ==> m.kind != Cab
  {
    if StillNotTaken(e, next) then TimerOutcome([next], ReleaseOnSwitchBoth(e, next))
    else TimerOutcome([], [])
  }

  /** The previous active order is released exactly when the candidate is
      submitted, the previous order is a Taken hall call, and the two differ
      in both floor and type. */
  lemma MainReleaseRule(e: Elevator, next: Order)
    requires next.status != Invalid ==> InMatrix(e.orders, next.floor, next.kind)
    ensures OnOrderTimer(e, next).tx != [] <==>
      (StillNotTaken(e, next) && e.activeOrder.kind != Cab && e.activeOrder.status == Taken &&
       next.floor != e.activeOrder.floor && next.kind != e.activeOrder.kind)
  {
  }

  /** A car serving the Taken hall call (2, HallUp) that switches to the
      NotTaken candidate (3, HallUp) walks away from its claim: main.go
      broadcasts no release, while the control loop's rule does. The other
      cars keep the call as Taken until the timeout sweep notices. */
  lemma MainKeepsAbandonedClaim()
    ensures var active := Order(2, HallUp, Taken, 7);
            var next := Order(3, HallUp, Execute, 0);
            var e := NewElevator(4, 3).(activeOrder := active);
            var e' := e.(orders := e.orders[3 := e.orders[3][HallUp := Order(3, HallUp, NotTaken, 0)]]);
            InMatrix(e'.orders, next.floor, next.kind) &&
            OnOrderTimer(e', next) == TimerOutcome([next], []) &&
            StartNextOrder(e', next) == TimerOutcome([next], [Order(2, HallUp, NotTaken, 7)])
  {
    var active := Order(2, HallUp, Taken, 7);
    var next := Order(3, HallUp, Execute, 0);
    var e := NewElevator(4, 3).(activeOrder := active);
    var e' := e.(orders := e.orders[3 := e.orders[3][HallUp := Order(3, HallUp, NotTaken, 0)]]);
    assert e'.orders[3][HallUp].status == NotTaken;
  }

  /** The resume branch: the restored car's matrix is logged, and the
      active order read from the backup is handed to the driver with status
      Execute. */
  function Resume(restored: Elevator): (orderChan: seq<Order>)
    requires Printable(restored)
    ensures |orderChan| == 1
    ensures orderChan[0].status == Execute
    ensures SameFloorAndType(orderChan[0], restored.activeOrder)
    ensures orderChan[0].localTimeStamp == restored.activeOrder.localTimeStamp
  {
    [WithStatus(restored.activeOrder, Execute)]
  }

  /** The resubmission is unconditional: when the backup file is missing or
      unreadable the fresh elevator's zero active order is resubmitted, so
      the driver is asked to execute a hall-up call at floor 0. */
  lemma ResumeWithoutBackupExecutesGroundFloor(nfloors: int, nbuttons: int)
    requires nfloors >= 0 && nbuttons >= 0
    ensures Resume(NewElevator(nfloors, nbuttons)) == [Order(0, HallUp, Execute, 0)]
  {
  }

  /** One iteration of main's loop: the control loop's step with main's own
      claim-timer branch. */
  function Step(s: LoopState, ev: Event, eq: (Order, Order) -> bool): (out: LoopOutput)
    requires StepDefined(s, ev)
    ensures NextInMatrix(s) || ev.ElevatorUpdate? ==> NextInMatrix(out.state)
    ensures forall m :: m in out.tx ==> m.kind != Cab
    ensures out.timer.Some? ==> ev.ElevatorUpdate? && out.state.next.status != Invalid
    ensures !ev.ElevatorUpdate? ==> out.state == s
  {
    match ev
    case OrderTimerFired =>
      var r := OnOrderTimer(s.elev, s.next);
      LoopOutput(s, r.orderChan, r.tx, None)
    case _ => Control.Step(s, ev, eq)
  }

  /** The two loops agree on every event except in what the claim timer
      releases, and there main broadcasts a subset of what control does. */
  lemma StepsAgreeExceptRelease(s: LoopState, ev: Event, eq: (Order, Order) -> bool)
    requires StepDefined(s, ev)
    ensures Step(s, ev, eq).state == Control.Step(s, ev, eq).state
    ensures Step(s, ev, eq).orderChan == Control.Step(s, ev, eq).orderChan
    ensures Step(s, ev, eq).timer == Control.Step(s, ev, eq).timer
    ensures forall m :: m in Step(s, ev, eq).tx ==> m in Control.Step(s, ev, eq).tx
    ensures !ev.OrderTimerFired? ==> Step(s, ev, eq).tx == Control.Step(s, ev, eq).tx
  {
  }
}

=== FILE: orders.dfy ===
/**
 * The two order records of the elevator system.
 *
 * `Order` is the record the control loop, the request search and the order
 * matrix work on (floor, button type, lifecycle status, claim timestamp).
 * `LegacyOrder` is the older record of elevTypes/order/order.go
 * (target floor, button type, finished flag) that the cost function and the
 * cost-keyed queue still use.
 */
module Orders {

  import opened Wrappers

  /** Button types. The source stores them in a plain `int`, so out-of-range
      values (the `-1` of an Invalid search result) are representable. */
  const HallUp: int := 0
  const HallDown: int := 1
  const Cab: int := 2

  /** Lifecycle status of an order, in the order of its numeric codes. */
  datatype Status = Invalid | NotTaken | Taken | Execute | Finished

  /** The numeric code printed for a status (0 for Invalid up to 4 for Finished). */
  function StatusCode(s: Status): (c: nat)
    ensures c < 5
    ensures s == Invalid <==> c == 0
  {
    match s
    case Invalid => 0
    case NotTaken => 1
    case Taken => 2
    case Execute => 3
    case Finished => 4
  }

  /** The status whose code is `c`, if any. */
  function StatusOfCode(c: int): (r: Option<Status>)
    ensures r.Some? <==> 0 <= c < 5
    ensures r.Some? ==> StatusCode(r.value) == c
  {
    if c == 0 then Some(Invalid)
    else if c == 1 then Some(NotTaken)
    else if c == 2 then Some(Taken)
    else if c == 3 then Some(Execute)
    else if c == 4 then Some(Finished)
    else None
  }

  /** An order: the cell (floor, kind) it is about, where it is in its
      lifecycle, and the instant after which a Taken claim counts as abandoned.
      `kind` is the source's `Type` field. */
  datatype Order = Order(floor: int, kind: int, status: Status, localTimeStamp: int)

  /** The zero value of the record: what a freshly made matrix holds. */
  const ZeroOrder: Order := Order(0, HallUp, Invalid, 0)

  /** The same order with another status. */
  function WithStatus(o: Order, s: Status): (r: Order)
    ensures r.status == s
    ensures r.floor == o.floor && r.kind == o.kind && r.localTimeStamp == o.localTimeStamp
  {
    o.(status := s)
  }

  /** The number of floors between floors `a` and `b`. */
  function FloorDistance(a: int, b: int): nat {
    if a < b then b - a else a - b
  }

  /** Two orders are about the same matrix cell. */
  predicate SameFloorAndType(a: Order, b: Order) {
    a.floor == b.floor && a.kind == b.kind
  }

  /** The older order record (elevTypes/order/order.go). */
  datatype LegacyOrder = LegacyOrder(targetFloor: int, kind: int, finished: bool)
}

=== FILE: queue.dfy ===
/**
 * The cost-keyed order queue (queue/queue.go), with the doubly linked list
 * modelled as a sequence whose first element is the list's front.
 */
module OrderQueue {

  import opened Wrappers
  import opened Orders

  /** An order together with the cost it was enqueued at. */
  datatype QueueOrder = QueueOrder(order: LegacyOrder, cost: int)

  /** The number of elements costlier than `c`. */
  function CountCostlier(q: seq<QueueOrder>, c: int): (n: nat)
    ensures n <= |q|
  {
    if |q| == 0 then 0 else (if q[0].cost > c then 1 else 0) + CountCostlier(q[1..], c)
  }

  /** The effect of the source's insertion loop: a copy of `x` is inserted
      immediately before every element costlier than `x`. */
  function Spread(q: seq<QueueOrder>, x: QueueOrder): (r: seq<QueueOrder>)
    ensures |r| == |q| + CountCostlier(q, x.cost)
  {
    if |q| == 0 then []
    else (if q[0].cost > x.cost then [x, q[0]] else [q[0]]) + Spread(q[1..], x)
  }

  /** The loop adds one copy of `x` per costlier element and loses nothing. */
  lemma {:induction false} SpreadMultiset(q: seq<QueueOrder>, x: QueueOrder)
    ensures multiset(Spread(q, x)) == multiset(q)[x := multiset(q)[x] + CountCostlier(q, x.cost)]
    decreases |q|
  {
    if |q| > 0 {
      SpreadMultiset(q[1..], x);
      assert q == [q[0]] + q[1..];
    }
  }

  /** Where the i-th original element lands once the copies are inserted. */
  function SpreadIndex(q: seq<QueueOrder>, x: QueueOrder, i: int): int
    requires 0 <= i < |q|
  {
    i + CountCostlier(q[..i + 1], x.cost)
  }

  /** The original elements keep their order, at `SpreadIndex`, and each
      costlier one is directly preceded by a copy of `x`. */
  lemma {:induction false} SpreadPositions(q: seq<QueueOrder>, x: QueueOrder, i: int)
    requires 0 <= i < |q|
    ensures 0 <= SpreadIndex(q, x, i) < |Spread(q, x)|
    ensures Spread(q, x)[SpreadIndex(q, x, i)] == q[i]
    ensures q[i].cost > x.cost ==>
      SpreadIndex(q, x, i) >= 1 && Spread(q, x)[SpreadIndex(q, x, i) - 1] == x
    decreases |q|
  {
    if i == 0 {
      SpreadFirst(q, x);
    } else {
      SpreadPositions(q[1..], x, i - 1);
      SpreadShift(q, x, i);
    }
  }

  /** The first element lands at the front, behind a copy of `x` when it is
      costlier. */
  lemma SpreadFirst(q: seq<QueueOrder>, x: QueueOrder)
    requires 0 < |q|
    ensures SpreadIndex(q, x, 0) == (if q[0].cost > x.cost then 1 else 0)
    ensures Spread(q, x)[..SpreadIndex(q, x, 0) + 1] ==
      (if q[0].cost > x.cost then [x, q[0]] else [q[0]])
  {
    assert q[..1] == [q[0]] && q[..1][1..] == [];
    var head := if q[0].cost > x.cost then [x, q[0]] else [q[0]];
    assert Spread(q, x) == head + Spread(q[1..], x);
    assert (head + Spread(q[1..], x))[..|head|] == head;
  }

  /** Past the first element, positions are those in the tail's spread,
      shifted by the first element's share (one or two slots). */
  lemma SpreadShift(q: seq<QueueOrder>, x: QueueOrder, i: int)
    requires 0 < i < |q|
    ensures var d := if q[0].cost > x.cost then 2 else 1;
      SpreadIndex(q, x, i) == d + SpreadIndex(q[1..], x, i - 1) &&
      Spread(q, x)[d..] == Spread(q[1..], x)
  {
    assert q[..i + 1][1..] == q[1..][..i];
    assert q[..i + 1][0] == q[0];
    var head := if q[0].cost > x.cost then [x, q[0]] else [q[0]];
    assert Spread(q, x) == head + Spread(q[1..], x);
    assert (head + Spread(q[1..], x))[|head|..] == Spread(q[1..], x);
  }

  /** With nothing costlier than `x`, the loop inserts nothing. */
  lemma {:induction false} SpreadNothingCostlier(q: seq<QueueOrder>, x: QueueOrder)
    requires forall i :: 0 <= i < |q| ==> q[i].cost <= x.cost
    ensures Spread(q, x) == q
    decreases |q|
  {
    if |q| > 0 {
      SpreadNothingCostlier(q[1..], x);
      assert q == [q[0]] + q[1..];
    }
  }

  /** The queue after an enqueue, and whether the source reports that it
      inserted at the front. */
  datatype EnqueueResult = EnqueueResult(queue: seq<QueueOrder>, insertedAtFront: bool)

  /** The source's enqueue, as written: copies before every costlier
      element, then `x` appended when the back is not costlier (reporting
      false), otherwise pushed to the front (reporting true). The check for
      "inserted before the front" inside the loop can never succeed and has
      no counterpart here. */
  function Enqueue(q: seq<QueueOrder>, x: QueueOrder): (r: EnqueueResult)
    ensures |r.queue| == |q| + CountCostlier(q, x.cost) + 1
    ensures |q| == 0 ==> r == EnqueueResult([x], true)
    ensures |q| > 0 && q[|q| - 1].cost <= x.cost ==>
      !r.insertedAtFront && r.queue[|r.queue| - 1] == x
    ensures |q| > 0 && q[|q| - 1].cost > x.cost ==> r.insertedAtFront && r.queue[0] == x
    ensures multiset(r.queue) == multiset(q)[x := multiset(q)[x] + CountCostlier(q, x.cost) + 1]
  {
    SpreadMultiset(q, x);
    if |q| == 0 then EnqueueResult([x], true)
    else if q[|q| - 1].cost <= x.cost then EnqueueResult(Spread(q, x) + [x], false)
    else EnqueueResult([x] + Spread(q, x), true)
  }

  /** When nothing in the queue is costlier, enqueue appends, and reports a
      front insertion exactly when the queue was empty. */
  lemma EnqueueNothingCostlier(q: seq<QueueOrder>, x: QueueOrder)
    requires forall i :: 0 <= i < |q| ==> q[i].cost <= x.cost
    ensures Enqueue(q, x).queue == q + [x]
    ensures Enqueue(q, x).insertedAtFront <==> |q| == 0
  {
    SpreadNothingCostlier(q, x);
  }

  /** Enqueueing cost 3 behind a single order of cost 5 leaves two copies
      of the new order in the queue; enqueueing cost 3 into [5, 1] moves the
      new order to the front while reporting that it did not. */
  lemma EnqueueDuplicatesOrder()
    ensures var a := QueueOrder(LegacyOrder(1, HallUp, false), 5);
            var x := QueueOrder(LegacyOrder(2, HallDown, false), 3);
            Enqueue([a], x) == EnqueueResult([x, x, a], true)
    ensures var a := QueueOrder(LegacyOrder(1, HallUp, false), 5);
            var b := QueueOrder(LegacyOrder(0, Cab, false), 1);
            var x := QueueOrder(LegacyOrder(2, HallDown, false), 3);
            Enqueue([a, b], x) == EnqueueResult([x, a, b, x], false)
  {
    var a := QueueOrder(LegacyOrder(1, HallUp, false), 5);
    var b := QueueOrder(LegacyOrder(0, Cab, false), 1);
    var x := QueueOrder(LegacyOrder(2, HallDown, false), 3);
    assert [a][1..] == [] && [a, b][1..] == [b] && [b][1..] == [];
    assert Spread([a], x) == [x, a];
    assert Spread([b], x) == [b];
    assert Spread([a, b], x) == [x, a, b];
  }

  /** The queue is in non-decreasing cost order. */
  predicate Sorted(q: seq<QueueOrder>) {
    forall i, j :: 0 <= i < j < |q| ==> q[i].cost <= q[j].cost
  }

  /** The index of the first element costlier than `c`, or |q|. */
  function FirstCostlier(q: seq<QueueOrder>, c: int): (k: nat)
    ensures k <= |q|
    ensures forall j :: 0 <= j < k ==> q[j].cost <= c
    ensures k < |q| ==> q[k].cost > c
  {
    if |q| == 0 then 0
    else if q[0].cost > c then 0
    else 1 + FirstCostlier(q[1..], c)
  }

  /** Enqueue as the source's comments describe it: `x` inserted once,
      before the first costlier element, reporting whether that put it at
      the front. */
  function EnqueueSorted(q: seq<QueueOrder>, x: QueueOrder): (r: EnqueueResult)
    ensures |r.queue| == |q| + 1
    ensures multiset(r.queue) == multiset(q) + multiset{x}
    ensures Sorted(q) ==> Sorted(r.queue)
    ensures r.insertedAtFront <==> |q| == 0 || q[0].cost > x.cost
    ensures r.insertedAtFront ==> r.queue[0] == x
    ensures !r.insertedAtFront ==> |q| > 0 && r.queue[0] == q[0]
  {
    var k := FirstCostlier(q, x.cost);
    InsertAtKeepsSorted(q, x, k);
    EnqueueResult(q[..k] + [x] + q[k..], k == 0)
  }

  /** The corrected enqueue inserts `x` after every element no costlier than
      it and before the first costlier one, and changes nothing else. */
  lemma EnqueueSortedPosition(q: seq<QueueOrder>, x: QueueOrder)
    ensures exists k :: (0 <= k <= |q| && EnqueueSorted(q, x).queue == q[..k] + [x] + q[k..] &&
                         (forall j :: 0 <= j < k ==> q[j].cost <= x.cost) &&
                         (k < |q| ==> q[k].cost > x.cost))
  {
    var k := FirstCostlier(q, x.cost);
    assert EnqueueSorted(q, x).queue == q[..k] + [x] + q[k..];
  }

  /** Inserting `x` at index k, between the elements no costlier and the
      elements costlier, adds exactly one copy and keeps a sorted queue
      sorted. */
  lemma InsertAtKeepsSorted(q: seq<QueueOrder>, x: QueueOrder, k: nat)
    requires k <= |q|
    requires forall j :: 0 <= j < k ==> q[j].cost <= x.cost
    requires k < |q| ==> q[k].cost > x.cost
    ensures multiset(q[..k] + [x] + q[k..]) == multiset(q) + multiset{x}
    ensures Sorted(q) ==> Sorted(q[..k] + [x] + q[k..])
  {
    assert q == q[..k] + q[k..];
    if Sorted(q) {
      InsertAtSorted(q, x, k);
    }
  }

  /** The sortedness half of `InsertAtKeepsSorted`. */
  lemma InsertAtSorted(q: seq<QueueOrder>, x: QueueOrder, k: nat)
    requires k <= |q| && Sorted(q)
    requires forall j :: 0 <= j < k ==> q[j].cost <= x.cost
    requires k < |q| ==> q[k].cost > x.cost
    ensures Sorted(q[..k] + [x] + q[k..])
  {
    var r := q[..k] + [x] + q[k..];
    assert forall i :: 0 <= i < k ==> r[i] == q[i];
    assert r[k] == x;
    assert forall i :: k < i < |r| ==> r[i] == q[i - 1];
    forall i, j | 0 <= i < j < |r|
      ensures r[i].cost <= r[j].cost
    {
      if j <= k {
      } else if i < k {
        assert q[i].cost <= q[j - 1].cost;
      } else if i > k {
        assert q[i - 1].cost <= q[j - 1].cost;
      } else if k < |q| {
        assert q[k].cost <= q[j - 1].cost;
      }
    }
  }

  /** Where the source's enqueue is not broken, that is when nothing in the
      queue is costlier than the new order, the corrected enqueue agrees
      with it. */
  lemma EnqueueSortedAgrees(q: seq<QueueOrder>, x: QueueOrder)
    requires forall i :: 0 <= i < |q| ==> q[i].cost <= x.cost
    ensures EnqueueSorted(q, x) == Enqueue(q, x)
  {
    EnqueueNothingCostlier(q, x);
    EnqueueSortedAppends(q, x);
  }

  /** With nothing costlier, the corrected enqueue appends, and reports a
      front insertion exactly when the queue was empty. */
  lemma EnqueueSortedAppends(q: seq<QueueOrder>, x: QueueOrder)
    requires forall i :: 0 <= i < |q| ==> q[i].cost <= x.cost
    ensures EnqueueSorted(q, x) == EnqueueResult(q + [x], |q| == 0)
  {
    assert FirstCostlier(q, x.cost) == |q|;
    assert q[..|q|] == q && q[|q|..] == [];
  }

  /** Dequeue removes a follower of `front` when it is for the same floor
      and is a cab call or of the front's type. */
  predicate RemovedWith(front: QueueOrder, e: QueueOrder) {
    front.order.targetFloor == e.order.targetFloor &&
    (e.order.kind == Cab || front.order.kind == e.order.kind)
  }

  /** The followers of `front` that dequeue keeps. */
  function Survivors(s: seq<QueueOrder>, front: QueueOrder): (r: seq<QueueOrder>)
    ensures |r| <= |s|
  {
    if |s| == 0 then []
    else (if RemovedWith(front, s[0]) then [] else [s[0]]) + Survivors(s[1..], front)
  }

  /** The survivors are exactly the followers that `front` does not serve. */
  lemma {:induction false} SurvivorsMembership(s: seq<QueueOrder>, front: QueueOrder)
    ensures forall e :: e in Survivors(s, front) <==> e in s && !RemovedWith(front, e)
    decreases |s|
  {
    if |s| > 0 {
      SurvivorsMembership(s[1..], front);
      assert s == [s[0]] + s[1..];
    }
  }

  /** Dequeue: an empty queue is left alone; otherwise the front goes, and
      with it every later order it serves as well. */
  function Dequeue(q: seq<QueueOrder>): (r: seq<QueueOrder>)
    ensures |q| == 0 ==> r == []
    ensures |q| > 0 ==> |r| < |q|
    ensures |q| > 0 ==> forall e :: e in r <==> e in q[1..] && !RemovedWith(q[0], e)
  {
    if |q| == 0 then []
    else
      SurvivorsMembership(q[1..], q[0]);
      Survivors(q[1..], q[0])
  }

  /** Keeping survivors distributes over concatenation, so the orders that
      stay keep their relative order. */
  lemma {:induction false} SurvivorsAppend(a: seq<QueueOrder>, b: seq<QueueOrder>, front: QueueOrder)
    ensures Survivors(a + b, front) == Survivors(a, front) + Survivors(b, front)
    decreases |a|
  {
    if |a| == 0 {
      assert a + b == b;
    } else {
      var head := if RemovedWith(front, a[0]) then [] else [a[0]];
      assert (a + b)[0] == a[0];
      assert (a + b)[1..] == a[1..] + b;
      calc {
        Survivors(a + b, front);
        head + Survivors(a[1..] + b, front);
        { SurvivorsAppend(a[1..], b, front); }
        head + (Survivors(a[1..], front) + Survivors(b, front));
        (head + Survivors(a[1..], front)) + Survivors(b, front);
        Survivors(a, front) + Survivors(b, front);
      }
    }
  }

  /** Survivors of a sorted sequence are sorted. */
  lemma {:induction false} SurvivorsSorted(s: seq<QueueOrder>, front: QueueOrder)
    requires Sorted(s)
    ensures Sorted(Survivors(s, front))
    decreases |s|
  {
    if |s| > 0 {
      SurvivorsSorted(s[1..], front);
      SurvivorsMembership(s[1..], front);
      var rest := Survivors(s[1..], front);
      forall e | e in rest
        ensures s[0].cost <= e.cost
      {
        var j :| 0 <= j < |s[1..]| && s[1..][j] == e;
        assert s[j + 1] == e;
      }
    }
  }

  /** The front order, which the source reads without checking that the
      queue is non-empty. It is an order of the queue, and of a queue kept in
      cost order it is an order of least cost. */
  function GetNextOrder(q: seq<QueueOrder>): (o: LegacyOrder)
    requires |q| > 0
    ensures exists e :: e in q && e.order == o && (Sorted(q) ==> forall d :: d in q ==> e.cost <= d.cost)
  {
    q[0].order
  }

  /** The events the queue loop serves. */
  datatype QueueEvent = EnqueueEvent(x: QueueOrder) | DequeueEvent

  /** The loop's new queue and what it publishes on `NextOrder`. */
  datatype QueueOutput = QueueOutput(queue: seq<QueueOrder>, published: seq<LegacyOrder>)

  /** One iteration of the source's queue loop: the queue becomes what
      Enqueue or Dequeue makes of it, and after an enqueue that reports a
      front insertion, or a dequeue that leaves something, the front order
      is published. */
  function QueueStep(q: seq<QueueOrder>, ev: QueueEvent): (out: QueueOutput)
    ensures |out.published| <= 1
    ensures out.published != [] ==> out.queue != [] && out.published[0] == out.queue[0].order
    ensures ev.DequeueEvent? ==> (out.published != [] <==> out.queue != [])
    ensures ev.EnqueueEvent? ==> (out.published != [] <==> Enqueue(q, ev.x).insertedAtFront)
    ensures ev.EnqueueEvent? ==> out.queue == Enqueue(q, ev.x).queue
    ensures ev.EnqueueEvent? ==> |out.queue| == |q| + CountCostlier(q, ev.x.cost) + 1
    ensures ev.DequeueEvent? ==> out.queue == Dequeue(q)
    ensures ev.DequeueEvent? && |q| > 0 ==> forall e :: e in out.queue <==> e in q[1..] && !RemovedWith(q[0], e)
  {
    match ev
    case EnqueueEvent(x) =>
      var r := Enqueue(q, x);
      QueueOutput(r.queue, if r.insertedAtFront then [GetNextOrder(r.queue)] else [])
    case DequeueEvent =>
      var q' := Dequeue(q);
      QueueOutput(q', if |q'| > 0 then [GetNextOrder(q')] else [])
  }

  /** The loop with the corrected enqueue: an enqueue adds exactly one copy
      of the order and publishes exactly when it lands in front, and a
      dequeue behaves as in the source. */
  function QueueStepSorted(q: seq<QueueOrder>, ev: QueueEvent): (out: QueueOutput)
    ensures |out.published| <= 1
    ensures out.published != [] ==> out.queue != [] && out.published[0] == out.queue[0].order
    ensures ev.EnqueueEvent? ==> out.queue == EnqueueSorted(q, ev.x).queue
    ensures ev.EnqueueEvent? ==> multiset(out.queue) == multiset(q) + multiset{ev.x}
    ensures ev.EnqueueEvent? ==> (out.published != [] <==> |q| == 0 || q[0].cost > ev.x.cost)
    ensures ev.DequeueEvent? ==> out.queue == Dequeue(q)
    ensures ev.DequeueEvent? ==> (out.published != [] <==> out.queue != [])
    ensures ev.DequeueEvent? && |q| > 0 ==> forall e :: e in out.queue <==> e in q[1..] && !RemovedWith(q[0], e)
  {
    match ev
    case EnqueueEvent(x) =>
      var r := EnqueueSorted(q, x);
      QueueOutput(r.queue, if r.insertedAtFront then [GetNextOrder(r.queue)] else [])
    case DequeueEvent =>
      var q' := Dequeue(q);
      QueueOutput(q', if |q'| > 0 then [GetNextOrder(q')] else [])
  }

  /** The listener on `NextOrder` has been told the current front. */
  predicate FrontPublished(q: seq<QueueOrder>, shown: Option<LegacyOrder>) {
    q != [] ==> shown == Some(q[0].order)
  }

  /** With the corrected enqueue the queue stays sorted and the listener
      always knows the current front: whenever the front changes, it is
      published. */
  lemma CorrectedLoopKeepsFront(q: seq<QueueOrder>, shown: Option<LegacyOrder>, ev: QueueEvent)
    requires Sorted(q) && FrontPublished(q, shown)
    ensures var out := QueueStepSorted(q, ev);
            Sorted(out.queue) &&
            FrontPublished(out.queue, if out.published != [] then Some(out.published[0]) else shown)
  {
    if ev.DequeueEvent? && |q| > 0 {
      assert Sorted(q[1..]) by {
        forall i, j | 0 <= i < j < |q[1..]|
          ensures q[1..][i].cost <= q[1..][j].cost
        {
          assert q[1..][i] == q[i + 1] && q[1..][j] == q[j + 1];
        }
      }
      SurvivorsSorted(q[1..], q[0]);
    }
  }

  /** The loop as written does not keep the queue sorted: one enqueue of
      cost 3 turns the sorted queue [1, 5] into [3, 1, 3, 5]. */
  lemma AsWrittenLoopUnsorts()
    ensures var a := QueueOrder(LegacyOrder(1, HallUp, false), 5);
            var b := QueueOrder(LegacyOrder(0, Cab, false), 1);
            var x := QueueOrder(LegacyOrder(2, HallDown, false), 3);
            Sorted([b, a]) && QueueStep([b, a], EnqueueEvent(x)).queue == [x, b, x, a] &&
            !Sorted(QueueStep([b, a], EnqueueEvent(x)).queue)
  {
    var a := QueueOrder(LegacyOrder(1, HallUp, false), 5);
    var b := QueueOrder(LegacyOrder(0, Cab, false), 1);
    var x := QueueOrder(LegacyOrder(2, HallDown, false), 3);
    assert [b, a][1..] == [a] && [a][1..] == [];
    assert Spread([a], x) == [x, a];
    assert Spread([b, a], x) == [b, x, a];
    assert Enqueue([b, a], x).queue == [x, b, x, a];
    var q := [x, b, x, a];
    assert q[0].cost > q[1].cost;
  }

  /** Nor does it keep the listener told the front: on the queue [5, 1] an
      enqueue of cost 3 puts the new order in front without publishing it,
      so the listener keeps the stale front. */
  lemma AsWrittenLoopHidesFront()
    ensures var a := QueueOrder(LegacyOrder(1, HallUp, false), 5);
            var b := QueueOrder(LegacyOrder(0, Cab, false), 1);
            var x := QueueOrder(LegacyOrder(2, HallDown, false), 3);
            FrontPublished([a, b], Some(a.order)) &&
            QueueStep([a, b], EnqueueEvent(x)).published == [] &&
            !FrontPublished(QueueStep([a, b], EnqueueEvent(x)).queue, Some(a.order))
  {
    EnqueueDuplicatesOrder();
  }
}

=== FILE: request.dfy ===
/**
 * Next-order selection (request/request.go): a fixed-priority search of the
 * order matrix for a NotTaken cell. The current floor is searched first,
 * then the floors above it, then the floors below it, and last the floors
 * between the car and its active order. Inside one floor the button types
 * are searched from the highest index down.
 */
module Request {

  import opened Orders
  import opened Elevators

  /** The upward search stops below this floor whatever the matrix size. */
  const ScanTop: int := 4

  /** The row has a NotTaken cell. */
  predicate RowHasNotTaken(row: seq<Order>) {
    exists i :: 0 <= i < |row| && row[i].status == NotTaken
  }

  /** Index of the last NotTaken cell of the row, or -1: the inner loop of
      every search, which visits indices l-1 down to 0. */
  function HighestNotTaken(row: seq<Order>): (i: int)
    ensures -1 <= i < |row|
    ensures i >= 0 ==> row[i].status == NotTaken
    ensures forall j :: i < j < |row| ==> row[j].status != NotTaken
  {
    if |row| == 0 then -1
    else if row[|row| - 1].status == NotTaken then |row| - 1
    else HighestNotTaken(row[..|row| - 1])
  }

  /** lo, lo+1, ..., hi-1 (empty when lo >= hi). */
  function Ascending(lo: int, hi: int): (fs: seq<int>)
    ensures |fs| == if lo < hi then hi - lo else 0
    ensures forall k :: 0 <= k < |fs| ==> fs[k] == lo + k
  {
    if lo < hi then seq(hi - lo, k => lo + k) else []
  }

  /** hi, hi-1, ..., lo+1 (empty when hi <= lo). */
  function Descending(hi: int, lo: int): (fs: seq<int>)
    ensures |fs| == if lo < hi then hi - lo else 0
    ensures forall k :: 0 <= k < |fs| ==> fs[k] == hi - k
  {
    if lo < hi then seq(hi - lo, k => hi - k) else []
  }

  /** Searching the floors `fs` in order never indexes a missing row: every
      floor visited before the first hit exists. Go panics otherwise. */
  predicate ScanInBounds(m: Matrix, fs: seq<int>) {
    |fs| == 0 ||
    (0 <= fs[0] < |m| && (HighestNotTaken(m[fs[0]]) >= 0 || ScanInBounds(m, fs[1..])))
  }

  /** Position in `fs` of the first floor with a NotTaken cell, or -1. */
  function ScanIndex(m: Matrix, fs: seq<int>): (k: int)
    requires ScanInBounds(m, fs)
    ensures -1 <= k < |fs|
    ensures k >= 0 ==> 0 <= fs[k] < |m| && HighestNotTaken(m[fs[k]]) >= 0
    ensures forall j :: 0 <= j < |fs| && (k < 0 || j < k) ==>
      0 <= fs[j] < |m| && HighestNotTaken(m[fs[j]]) < 0
  {
    if |fs| == 0 then -1
    else if HighestNotTaken(m[fs[0]]) >= 0 then 0
    else
      var k := ScanIndex(m, fs[1..]);
      if k < 0 then -1 else k + 1
  }

  /** The (floor, type, ok) triple each search of the source returns. */
  datatype Found = Found(floor: int, kind: int) | NotFound

  /** Searches the floors `fs` in order; inside a floor the highest type wins. */
  function ScanFloors(m: Matrix, fs: seq<int>): Found
    requires ScanInBounds(m, fs)
  {
    var k := ScanIndex(m, fs);
    if k < 0 then NotFound else Found(fs[k], HighestNotTaken(m[fs[k]]))
  }

  function AtFloorFloors(e: Elevator): seq<int> {
    [e.floor]
  }

  function AboveFloors(e: Elevator): seq<int> {
    Ascending(e.floor + 1, ScanTop)
  }

  function BelowFloors(e: Elevator): seq<int> {
    Descending(e.floor - 1, -1)
  }

  /** From the current floor towards the active order, in the direction of
      travel, excluding the active order's floor; nothing when stopped. */
  function BetweenFloors(e: Elevator): seq<int> {
    match e.direction
    case Up => Ascending(e.floor, e.activeOrder.floor)
    case Down => Descending(e.floor, e.activeOrder.floor)
    case Stop => []
  }

  /** Cell `i` is the highest-index NotTaken cell of the row. */
  predicate HighestHit(row: seq<Order>, i: int) {
    0 <= i < |row| && row[i].status == NotTaken &&
    forall j :: i < j < |row| ==> row[j].status != NotTaken
  }

  /** Floor `fs[j]`, searched before the first hit or in a search with no
      hit, exists and has no NotTaken cell. */
  lemma ScanPrefixEmpty(m: Matrix, fs: seq<int>, j: int)
    requires ScanInBounds(m, fs)
    requires 0 <= j < |fs| && (ScanIndex(m, fs) < 0 || j < ScanIndex(m, fs))
    ensures 0 <= fs[j] < |m| && !RowHasNotTaken(m[fs[j]])
  {
    HighestNotTakenFinds(m[fs[j]]);
  }

  /** A hit of the search is an existing floor of `fs`, at its highest
      NotTaken index. */
  lemma ScanHit(m: Matrix, fs: seq<int>)
    requires ScanInBounds(m, fs) && ScanFloors(m, fs).Found?
    ensures ScanIndex(m, fs) >= 0 && ScanFloors(m, fs).floor == fs[ScanIndex(m, fs)]
    ensures 0 <= ScanFloors(m, fs).floor < |m|
    ensures HighestHit(m[ScanFloors(m, fs).floor], ScanFloors(m, fs).kind)
  {
  }

  /** Floors lo, ..., hi-1 all exist and none has a NotTaken cell. */
  predicate NoNotTakenIn(m: Matrix, lo: int, hi: int) {
    lo < hi ==> 0 <= lo && hi <= |m| && forall h :: lo <= h < hi ==> !RowHasNotTaken(m[h])
  }

  /** `fs` lists lo, lo+1, ..., hi-1. */
  predicate IsAscending(fs: seq<int>, lo: int, hi: int) {
    |fs| == (if lo < hi then hi - lo else 0) && forall k :: 0 <= k < |fs| ==> fs[k] == lo + k
  }

  /** `fs` lists hi, hi-1, ..., lo+1. */
  predicate IsDescending(fs: seq<int>, hi: int, lo: int) {
    |fs| == (if lo < hi then hi - lo else 0) && forall k :: 0 <= k < |fs| ==> fs[k] == hi - k
  }

  /** Searching lo, lo+1, ..., hi-1 finds the lowest of those floors with a
      NotTaken cell, at its highest NotTaken index; every floor searched
      before it exists and has none. */
  lemma ScanAscending(m: Matrix, fs: seq<int>, lo: int, hi: int, r: Found)
    requires IsAscending(fs, lo, hi) && ScanInBounds(m, fs) && r == ScanFloors(m, fs)
    ensures r.Found? ==> lo <= r.floor < hi && 0 <= r.floor < |m| && HighestHit(m[r.floor], r.kind)
    ensures NoNotTakenIn(m, lo, if r.Found? then r.floor else hi)
  {
    var k := ScanIndex(m, fs);
    if r.Found? {
      ScanHit(m, fs);
      assert r.floor == lo + k;
      if lo < r.floor {
        AscendingFloorEmpty(m, fs, lo, hi, lo);
      }
      forall h | lo <= h < r.floor
        ensures !RowHasNotTaken(m[h])
      {
        AscendingFloorEmpty(m, fs, lo, hi, h);
      }
    } else {
      assert k < 0;
      if lo < hi {
        AscendingFloorEmpty(m, fs, lo, hi, lo);
        AscendingFloorEmpty(m, fs, lo, hi, hi - 1);
      }
      forall h | lo <= h < hi
        ensures !RowHasNotTaken(m[h])
      {
        AscendingFloorEmpty(m, fs, lo, hi, h);
      }
    }
  }

  /** One floor of lo, ..., hi-1 searched before the hit, or in a search
      with no hit, exists and has no NotTaken cell. */
  lemma AscendingFloorEmpty(m: Matrix, fs: seq<int>, lo: int, hi: int, h: int)
    requires IsAscending(fs, lo, hi) && ScanInBounds(m, fs) && lo <= h < hi
    requires ScanIndex(m, fs) < 0 || h - lo < ScanIndex(m, fs)
    ensures 0 <= h < |m| && !RowHasNotTaken(m[h])
  {
    assert fs[h - lo] == h;
    ScanPrefixEmpty(m, fs, h - lo);
  }

  /** Searching hi, hi-1, ..., lo+1 finds the highest of those floors with
      a NotTaken cell, at its highest NotTaken index; every floor searched
      before it exists and has none. */
  lemma ScanDescending(m: Matrix, fs: seq<int>, hi: int, lo: int, r: Found)
    requires IsDescending(fs, hi, lo) && ScanInBounds(m, fs) && r == ScanFloors(m, fs)
    ensures r.Found? ==> lo < r.floor <= hi && 0 <= r.floor < |m| && HighestHit(m[r.floor], r.kind)
    ensures NoNotTakenIn(m, if r.Found? then r.floor + 1 else lo + 1, hi + 1)
  {
    var k := ScanIndex(m, fs);
    if r.Found? {
      ScanHit(m, fs);
      assert r.floor == hi - k;
      if r.floor < hi {
        DescendingFloorEmpty(m, fs, hi, lo, hi);
      }
      forall h | r.floor + 1 <= h < hi + 1
        ensures !RowHasNotTaken(m[h])
      {
        DescendingFloorEmpty(m, fs, hi, lo, h);
      }
    } else {
      assert k < 0;
      if lo < hi {
        DescendingFloorEmpty(m, fs, hi, lo, hi);
        DescendingFloorEmpty(m, fs, hi, lo, lo + 1);
      }
      forall h | lo + 1 <= h < hi + 1
        ensures !RowHasNotTaken(m[h])
      {
        DescendingFloorEmpty(m, fs, hi, lo, h);
      }
    }
  }

  /** One floor of hi, ..., lo+1 searched before the hit, or in a search
      with no hit, exists and has no NotTaken cell. */
  lemma DescendingFloorEmpty(m: Matrix, fs: seq<int>, hi: int, lo: int, h: int)
    requires IsDescending(fs, hi, lo) && ScanInBounds(m, fs) && lo < h <= hi
    requires ScanIndex(m, fs) < 0 || hi - h < ScanIndex(m, fs)
    ensures 0 <= h < |m| && !RowHasNotTaken(m[h])
  {
    assert fs[hi - h] == h;
    ScanPrefixEmpty(m, fs, hi - h);
  }

  /** orderAtFloor: the current floor must exist; a hit is there, at the
      highest NotTaken index, and there is one exactly when the floor holds
      a NotTaken cell. */
  function OrderAtFloor(e: Elevator): (r: Found)
    requires ScanInBounds(e.orders, AtFloorFloors(e))
    ensures 0 <= e.floor < |e.orders|
    ensures r.Found? <==> RowHasNotTaken(e.orders[e.floor])
    ensures r.Found? ==> r.floor == e.floor && HighestHit(e.orders[e.floor], r.kind)
  {
    HighestNotTakenFinds(e.orders[e.floor]);
    ScanFloors(e.orders, AtFloorFloors(e))
  }

  /** orderAbove: the nearest floor above the car, and below ScanTop, with
      a NotTaken cell, at its highest NotTaken index; every floor passed on
      the way exists and has none. */
  function OrderAbove(e: Elevator): (r: Found)
    requires ScanInBounds(e.orders, AboveFloors(e))
    ensures r.Found? ==> e.floor < r.floor < ScanTop && 0 <= r.floor < |e.orders|
    ensures r.Found? ==> HighestHit(e.orders[r.floor], r.kind)
    ensures NoNotTakenIn(e.orders, e.floor + 1, if r.Found? then r.floor else ScanTop)
  {
    var r := ScanFloors(e.orders, AboveFloors(e));
    ScanAscending(e.orders, AboveFloors(e), e.floor + 1, ScanTop, r);
    r
  }

  /** orderBelow: the nearest floor below the car with a NotTaken cell, at
      its highest NotTaken index; every floor passed on the way exists and
      has none. */
  function OrderBelow(e: Elevator): (r: Found)
    requires ScanInBounds(e.orders, BelowFloors(e))
    ensures r.Found? ==> 0 <= r.floor < e.floor && r.floor < |e.orders|
    ensures r.Found? ==> HighestHit(e.orders[r.floor], r.kind)
    ensures NoNotTakenIn(e.orders, if r.Found? then r.floor + 1 else 0, e.floor)
  {
    var r := ScanFloors(e.orders, BelowFloors(e));
    ScanDescending(e.orders, BelowFloors(e), e.floor - 1, -1, r);
    r
  }

  /** orderBetween: moving up, the lowest floor from the car's floor up to
      (not including) the active order's floor with a NotTaken cell; moving
      down, the highest such floor from the car's floor down to (not
      including) the active order's floor; stopped, nothing. Every floor
      passed on the way exists and has none. */
  function OrderBetween(e: Elevator): (r: Found)
    requires ScanInBounds(e.orders, BetweenFloors(e))
    ensures e.direction == Stop ==> r.NotFound?
    ensures r.Found? ==> 0 <= r.floor < |e.orders| && HighestHit(e.orders[r.floor], r.kind)
    ensures r.Found? && e.direction == Up ==> e.floor <= r.floor < e.activeOrder.floor
    ensures r.Found? && e.direction == Down ==> e.activeOrder.floor < r.floor <= e.floor
    ensures e.direction == Up ==>
      NoNotTakenIn(e.orders, e.floor, if r.Found? then r.floor else e.activeOrder.floor)
    ensures e.direction == Down ==>
      NoNotTakenIn(e.orders, if r.Found? then r.floor + 1 else e.activeOrder.floor + 1, e.floor + 1)
  {
    var r := ScanFloors(e.orders, BetweenFloors(e));
    match e.direction
    case Up => ScanAscending(e.orders, BetweenFloors(e), e.floor, e.activeOrder.floor, r); r
    case Down => ScanDescending(e.orders, BetweenFloors(e), e.floor, e.activeOrder.floor, r); r
    case Stop => r
  }

  /** No search that FindNextOrder runs indexes a missing row. */
  predicate NextOrderDefined(e: Elevator) {
    var m := e.orders;
    ScanInBounds(m, AtFloorFloors(e)) &&
    (ScanIndex(m, AtFloorFloors(e)) >= 0 ||
     (ScanInBounds(m, AboveFloors(e)) &&
      (ScanIndex(m, AboveFloors(e)) >= 0 ||
       (ScanInBounds(m, BelowFloors(e)) &&
        (ScanIndex(m, BelowFloors(e)) >= 0 || ScanInBounds(m, BetweenFloors(e)))))))
  }

  /** The best NotTaken order for the car, marked Execute, or an Invalid
      order at floor -1, type -1 when the searches find nothing. */
  function FindNextOrder(e: Elevator): (o: Order)
    requires NextOrderDefined(e)
    ensures o.status == Invalid || o.status == Execute
    ensures o.status == Invalid ==> o.floor == -1 && o.kind == -1
    ensures o.status == Execute ==>
      InMatrix(e.orders, o.floor, o.kind) && e.orders[o.floor][o.kind].status == NotTaken
  {
    var at := OrderAtFloor(e);
    var r :=
      if at.Found? then at
      else
        var above := OrderAbove(e);
        if above.Found? then above
        else
          var below := OrderBelow(e);
          if below.Found? then below else OrderBetween(e);
    match r
    case NotFound => Order(-1, -1, Invalid, 0)
    case Found(f, t) => Order(f, t, Execute, 0)
  }

  // ---------------------------------------------------------------------
  // Properties of the search
  // ---------------------------------------------------------------------

  lemma HighestNotTakenFinds(row: seq<Order>)
    ensures HighestNotTaken(row) >= 0 <==> RowHasNotTaken(row)
  {
    if RowHasNotTaken(row) {
      var i :| 0 <= i < |row| && row[i].status == NotTaken;
      assert HighestNotTaken(row) >= i;
    }
  }

  /** When every floor of `fs` exists, searching `fs` is defined. */
  lemma {:induction false} ScanInBoundsWhenFloorsExist(m: Matrix, fs: seq<int>)
    requires forall k :: 0 <= k < |fs| ==> 0 <= fs[k] < |m|
    ensures ScanInBounds(m, fs)
    decreases |fs|
  {
    if |fs| > 0 {
      ScanInBoundsWhenFloorsExist(m, fs[1..]);
    }
  }

  /** A simple sufficient condition for FindNextOrder to be defined: a known
      floor, at least ScanTop rows, and an active order whose floor keeps
      the search between car and order inside the matrix. */
  lemma NextOrderDefinedWhenInside(e: Elevator)
    requires 0 <= e.floor < |e.orders| && ScanTop <= |e.orders|
    requires e.direction == Up ==> e.activeOrder.floor <= |e.orders|
    requires e.direction == Down ==> e.activeOrder.floor >= -1
    ensures NextOrderDefined(e)
  {
    ScanInBoundsWhenFloorsExist(e.orders, AtFloorFloors(e));
    ScanInBoundsWhenFloorsExist(e.orders, AboveFloors(e));
    ScanInBoundsWhenFloorsExist(e.orders, BelowFloors(e));
    ScanInBoundsWhenFloorsExist(e.orders, BetweenFloors(e));
  }

  /** A NotTaken cell on the current floor always wins, and within the
      floor the highest type index wins (Cab, then HallDown, then HallUp). */
  lemma CurrentFloorFirst(e: Elevator)
    requires NextOrderDefined(e)
    requires 0 <= e.floor < |e.orders| && RowHasNotTaken(e.orders[e.floor])
    ensures FindNextOrder(e).status == Execute
    ensures FindNextOrder(e).floor == e.floor
    ensures forall j :: FindNextOrder(e).kind < j < |e.orders[e.floor]| ==>
      e.orders[e.floor][j].status != NotTaken
  {
    HighestNotTakenFinds(e.orders[e.floor]);
    assert ScanIndex(e.orders, AtFloorFloors(e)) == 0;
  }

  /** With nothing on the current floor, the nearest floor above (below
      ScanTop) holding a NotTaken cell wins, whatever the direction. */
  lemma NearestFloorAbove(e: Elevator, g: int)
    requires NextOrderDefined(e)
    requires 0 <= e.floor < |e.orders| && !RowHasNotTaken(e.orders[e.floor])
    requires e.floor < g < ScanTop && g < |e.orders| && RowHasNotTaken(e.orders[g])
    ensures FindNextOrder(e).status == Execute
    ensures e.floor < FindNextOrder(e).floor <= g
    ensures forall h :: e.floor < h < FindNextOrder(e).floor ==> !RowHasNotTaken(e.orders[h])
    ensures forall j :: FindNextOrder(e).kind < j < |e.orders[FindNextOrder(e).floor]| ==>
      e.orders[FindNextOrder(e).floor][j].status != NotTaken
  {
    var m := e.orders;
    HighestNotTakenFinds(m[e.floor]);
    HighestNotTakenFinds(m[g]);
    var fs := AboveFloors(e);
    assert fs[g - e.floor - 1] == g;
    var k := ScanIndex(m, fs);
    assert 0 <= k <= g - e.floor - 1;
    forall h | e.floor < h < fs[k]
      ensures !RowHasNotTaken(m[h])
    {
      assert fs[h - e.floor - 1] == h;
      HighestNotTakenFinds(m[h]);
    }
  }

  /** With nothing on the current floor or on the searched floors above it,
      the nearest floor below holding a NotTaken cell wins. */
  lemma NearestFloorBelow(e: Elevator, g: int)
    requires NextOrderDefined(e)
    requires 0 <= e.floor < |e.orders| && !RowHasNotTaken(e.orders[e.floor])
    requires forall h :: e.floor < h < ScanTop && h < |e.orders| ==> !RowHasNotTaken(e.orders[h])
    requires 0 <= g < e.floor && RowHasNotTaken(e.orders[g])
    ensures FindNextOrder(e).status == Execute
    ensures g <= FindNextOrder(e).floor < e.floor
    ensures forall h :: FindNextOrder(e).floor < h < e.floor ==> !RowHasNotTaken(e.orders[h])
  {
    var m := e.orders;
    HighestNotTakenFinds(m[e.floor]);
    HighestNotTakenFinds(m[g]);
    assert ScanIndex(m, AtFloorFloors(e)) < 0;
    var above := AboveFloors(e);
    assert ScanInBounds(m, above);
    if ScanIndex(m, above) >= 0 {
      var k := ScanIndex(m, above);
      HighestNotTakenFinds(m[above[k]]);
      assert false;
    }
    var fs := BelowFloors(e);
    assert ScanInBounds(m, fs);
    assert fs[e.floor - 1 - g] == g;
    var k := ScanIndex(m, fs);
    assert 0 <= k <= e.floor - 1 - g;
    forall h | fs[k] < h < e.floor
      ensures !RowHasNotTaken(m[h])
    {
      assert fs[e.floor - 1 - h] == h;
      HighestNotTakenFinds(m[h]);
    }
  }

  /** On a matrix of exactly ScanTop floors, once the searches at, above
      and below the car have missed, the search between car and active
      order misses too: every floor it could visit was searched already. */
  lemma BetweenFindsNothingNew(e: Elevator)
    requires |e.orders| == ScanTop
    requires ScanInBounds(e.orders, AtFloorFloors(e)) && ScanInBounds(e.orders, AboveFloors(e))
    requires ScanInBounds(e.orders, BelowFloors(e)) && ScanInBounds(e.orders, BetweenFloors(e))
    requires OrderAtFloor(e).NotFound? && OrderAbove(e).NotFound? && OrderBelow(e).NotFound?
    ensures OrderBetween(e).NotFound?
  {
  }

  /** On a matrix of exactly ScanTop floors the search between car and
      active order never finds anything new: the result is Invalid exactly
      when no cell at all is NotTaken. */
  lemma InvalidIffNothingNotTaken(e: Elevator)
    requires NextOrderDefined(e)
    requires |e.orders| == ScanTop
    ensures FindNextOrder(e).status == Invalid <==>
      forall f, t :: InMatrix(e.orders, f, t) ==> e.orders[f][t].status != NotTaken
  {
    var m := e.orders;
    var o := FindNextOrder(e);
    if o.status == Invalid {
      assert ScanIndex(m, AtFloorFloors(e)) < 0;
      assert ScanIndex(m, AboveFloors(e)) < 0;
      assert ScanIndex(m, BelowFloors(e)) < 0;
      forall f, t | InMatrix(m, f, t)
        ensures m[f][t].status != NotTaken
      {
        if f == e.floor {
          assert AtFloorFloors(e)[0] == f;
        } else if f > e.floor {
          assert AboveFloors(e)[f - e.floor - 1] == f;
        } else {
          assert BelowFloors(e)[e.floor - 1 - f] == f;
        }
        HighestNotTakenFinds(m[f]);
      }
    } else {
      assert InMatrix(m, o.floor, o.kind) && m[o.floor][o.kind].status == NotTaken;
    }
  }

  /** Because of the fixed ScanTop, an order on a fifth floor is never found
      by a stopped car on the ground floor: the result is Invalid although a
      NotTaken cell exists. */
  lemma FixedScanTopMissesUpperFloors()
    ensures
      var row := seq(3, _ => ZeroOrder);
      var call := row[HallUp := Order(4, HallUp, NotTaken, 0)];
      var e := Elevator(ZeroOrder, 0, Stop, Idle, 5, 3, [row, row, row, row, call]);
      NextOrderDefined(e) &&
      e.orders[4][HallUp].status == NotTaken &&
      FindNextOrder(e).status == Invalid
  {
    var row := seq(3, _ => ZeroOrder);
    var call := row[HallUp := Order(4, HallUp, NotTaken, 0)];
    var e := Elevator(ZeroOrder, 0, Stop, Idle, 5, 3, [row, row, row, row, call]);
    forall f | 0 <= f < ScanTop
      ensures !RowHasNotTaken(e.orders[f])
    {
      assert e.orders[f] == row;
    }
    GroundFloorScanMisses(e);
  }

  /** A stopped car on the ground floor whose first four rows hold no
      NotTaken cell finds nothing, whatever the rows above them hold. */
  lemma GroundFloorScanMisses(e: Elevator)
    requires e.floor == 0 && e.direction == Stop && |e.orders| >= ScanTop
    requires forall f :: 0 <= f < ScanTop ==> !RowHasNotTaken(e.orders[f])
    ensures NextOrderDefined(e) && FindNextOrder(e).status == Invalid
  {
    forall f | 0 <= f < ScanTop
      ensures HighestNotTaken(e.orders[f]) < 0
    {
      HighestNotTakenFinds(e.orders[f]);
    }
    ScanInBoundsWhenFloorsExist(e.orders, AtFloorFloors(e));
    ScanInBoundsWhenFloorsExist(e.orders, AboveFloors(e));
    assert BelowFloors(e) == [] && BetweenFloors(e) == [];
    assert ScanIndex(e.orders, AtFloorFloors(e)) < 0;
    assert ScanIndex(e.orders, AboveFloors(e)) < 0;
  }

  /** A freshly built car with the default four floors has no next order. */
  lemma NewElevatorIsQuiet(nbuttons: int)
    requires nbuttons >= 0
    ensures NextOrderDefined(NewElevator(ScanTop, nbuttons))
    ensures FindNextOrder(NewElevator(ScanTop, nbuttons)).status == Invalid
  {
    var e := NewElevator(ScanTop, nbuttons);
    NextOrderDefinedWhenInside(e);
    InvalidIffNothingNotTaken(e);
  }

  /** Nor does a freshly built car hold a claim for the sweep to resubmit. */
  lemma NewElevatorHasNoClaims(n: int, nbuttons: int, now: int)
    requires n >= 0 && nbuttons >= 0
    ensures TimedOutOrders(NewElevator(n, nbuttons).orders, now) == []
  {
    var s := TimedOutOrders(NewElevator(n, nbuttons).orders, now);
    if |s| > 0 {
      TimedOutOrdersMembership(NewElevator(n, nbuttons).orders, now, s[0]);
      assert false;
    }
  }
}

=== FILE: wrappers.dfy ===
/** Failure-compatible helper datatype shared by the other modules. */
module Wrappers {

  /** A value that may be absent: a search that found nothing, a parse that failed. */
  datatype Option<+T> = None | Some(value: T)
}
